=== FILE: README.md ===
# go-backend-ecom request handling, modelled in Dafny

This project models the request-decision logic of go-backend-ecom, a small
e-commerce HTTP service written in Go. It covers:

- the configuration read from the environment (`config/env.go`);
- the `validate` struct tags of the user payloads (`types/payloads.go`);
- JWT issuance, parsing and the bearer-token middleware (`service/auth/jwt.go`);
- the SQL-backed user and product stores, over the outcomes `database/sql`
  hands them (`service/user/store.go`, `service/product/store.go`);
- the login and registration handlers (`service/user/route.go`);
- the five product handlers and their token-gated routes (`service/product/route.go`).

Every handler is a pure function from its collaborators and the request to a
`Served` value. That value holds the response (status and body) and the
ordered trace of collaborator calls the handler made. The trace is what
makes properties such as "no store call for an invalid request" or "the
wrapped handler runs exactly once" statable.

Collaborators the service does not implement itself are parameters
(oracles) of type function:

- JSON decoding of the request body;
- the validator's email check;
- bcrypt hashing and comparison;
- the store, as seen from the handlers;
- the golang-jwt library (decode, verify, sign);
- the clock.

Go's `int` is the subset type `Text.Int64`. `strconv.Itoa`,
`strconv.Atoi`, `fmt.Sscanf("%d")`, `strings.ToLower` and
`strings.SplitN(s, " ", 2)` are modelled in `text.dfy`, to the extent
the service depends on them.

Modules, one per file: `Outcomes`, `Text`, `Configuration`, `Types`,
`Payloads`, `Jwt`, `Sql`, `UserStore`, `ProductStore`, `UserRoutes`,
`ProductRoutes`.

Behaviours of the source that the model keeps as written:

- The registration duplicate check treats any lookup error as "no such
  user", a failing database query included. Registration then goes ahead
  (`UserRoutes.DuplicateOnlyForStoredRow`).
- `CreateUser` does not read back the inserted ID, so the 201 body of a
  registration always carries ID 0 and an empty creation time.
- Deleting a product does not check that it exists: every id the store
  accepts is answered 200 with zero-valued data.
- The product routes are gated by `RequireToken`. The user routes are not.

## Model

| member | source | states |
|---|---|---|
| Text.Atoi | service/product/route.go:97 | an accepted id is an optional sign followed only by digits, ending in a digit; a negative value needs a leading '-' |
| Text.AtoiSignedDigits | service/product/route.go:97 | conversely, every optional '+' or '-' followed by decimal digits whose value fits 64 bits is accepted with that value, leading zeros and "-0" included |
| Text.Itoa | service/auth/jwt.go:21 | the spelling starts with '-' exactly for negative numbers and is otherwise digits only, with no leading zero: the canonical decimal spelling |
| Text.AtoiItoa | service/auth/jwt.go:76-82 | the decimal id written into the token is read back by `Atoi` as the same id, for every 64-bit `int` |
| Text.ScanDecimal | config/env.go:75 | a string with no decimal digit in it is never read as an integer; a number is read only when, after the skipped blanks, the text starts with a digit or with a sign followed by a digit, so a leading newline or letter is refused |
| Text.AtoiRefusesOutOfRange | service/product/route.go:97-100 | an optional sign and digits whose value does not fit Go's 64-bit `int` is refused, so such an id is answered "invalid id" |
| Text.ScanDecimalRefusesOutOfRange | config/env.go:72-81 | `Sscanf("%d")` refuses a number that does not fit the 64-bit `int`, whatever blanks precede it and whatever non-digit text follows it, so the fallback is used |
| Text.ScanDecimalItoa | config/env.go:72-81 | `Sscanf("%d")` reads back any number as `Itoa` writes it, whatever blanks precede it and whatever non-digit text follows it |
| Text.ScanDecimalSignedDigits | config/env.go:72-81 | `Sscanf("%d")` reads any in-range number with a '+', a '-' or no sign and any leading zeros at its value, whatever blanks precede it and whatever non-digit text follows it ("+3600s" is 3600) |
| Text.ScanDecimalSkipsBlanks | config/env.go:75 | leading blanks do not change what `Sscanf` reads |
| Text.ScanDecimalAcceptsAtoi | config/env.go:72-81 | every string `Atoi` accepts is read to the same value by `Sscanf("%d")` |
| Text.ToLowerAscii | service/auth/jwt.go:64 | same length, each ASCII capital replaced by its small letter and every other character kept |
| Text.ToLowerMatches | service/auth/jwt.go:64 | lower-casing the scheme gives "bearer" exactly when it spells "bearer" in some mix of cases (both directions) |
| Text.SplitFirstSpace | service/auth/jwt.go:63 | two parts exactly when the header has a space, the first part holds no space, and the parts joined by a space give the header back |
| Text.SplitAtFirstSpace | service/auth/jwt.go:63-64 | a head without spaces, a space and any rest always split into exactly that head and that rest |
| Configuration.GetEnv | config/env.go:65-70 | a set variable's value is used even when empty; the fallback only when the variable is unset |
| Configuration.GetEnvAsInt | config/env.go:72-81 | the integer `Sscanf` reads, or the fallback when the variable is unset or unreadable |
| Configuration.InitConfig | config/env.go:46-61 | each field is its variable's value when set and its fallback ("http://localhost", "8080", "root", "", "go-backend-ecom", 86400 seconds, "asdfasdfasdf") when unset; the DB address is host ":" port; the JWT secret is empty exactly when `JWT_SECRET` is set to "" |
| Configuration.ExpirationIsRead | config/env.go:58 | an expiry as `Itoa` writes it, padded or followed by a unit, is taken as given |
| Types.ViewOf | types/types.go:27-34 | the JSON view of a user keeps every field except the password |
| Payloads.RegisterFields | types/payloads.go:7-10 | the four registration fields carry the payload's values in declaration order; each is `required`, only the email is `email`, and the password is `min=6` |
| Payloads.LoginFields | types/payloads.go:16-17 | the email is `required` and `email`; the password is only `required`, with no minimum |
| Payloads.FirstFailure | types/payloads.go:6-11 | a field fails exactly when some tag fails, and the reported tag is the first failing one in declaration order: every tag before it passes |
| Payloads.ValidateFields | types/payloads.go:6-11 | every error names a failing field, qualified by the struct name, and that field's first failing tag; every failing field is reported; there are no more errors than fields; no error exactly when every field passes all its tags |
| Payloads.ValidateFieldsConcat | types/payloads.go:6-11 | the errors of a run of fields are the errors of its parts in order, so errors come in field order, each failing field contributing exactly one |
| Payloads.ValidateRegister | types/payloads.go:6-11 | registration is valid exactly when both names are non-empty, the email is non-empty and email-shaped, and the password has at least 6 characters |
| Payloads.ValidateLogin | types/payloads.go:15-18 | login is valid exactly when the email is non-empty and email-shaped and the password is non-empty |
| Payloads.ReadPayload | service/user/route.go:53-68 | a nil body gives "request body is empty"; a decode error passes through; a payload is accepted exactly when it decodes and validates, and it is then the decoded one; a payload that fails validation gives the validator's text |
| Jwt.IssueClaims | service/auth/jwt.go:19-23 | the claims are exactly `userId` and `exp`; `exp` is now plus the lifetime; `userId` is the `strconv.Itoa` decimal string of the id, which the gate reads back as the id |
| Jwt.CreateJWT | service/auth/jwt.go:16-31 | the token is the HS256 signature with the secret of claims whose `userId` is the `Itoa` decimal string of the id, whose subject reads back as the id, and whose expiry is now plus the lifetime |
| Jwt.ParseJWT | service/auth/jwt.go:34-50 | a malformed token fails; a non-HMAC token fails with the keyfunc error; an HMAC token gets the library's verdict with the secret; claims come back only for HMAC tokens |
| Jwt.NonHmacNeverVerified | service/auth/jwt.go:35-41 | a non-HMAC token is refused whatever the verifier and the secret |
| Jwt.RequireToken | service/auth/jwt.go:55-86 | a missing header is 401 "missing Authorization header"; a refused request is 401 and never reaches the handler; an admitted one runs the handler exactly once with the token's subject |
| Jwt.GateNeedsSpace | service/auth/jwt.go:63-67 | a non-empty header without a space is 401 "invalid Authorization header" |
| Jwt.GateSplitsAtFirstSpace | service/auth/jwt.go:63-74 | for a header "scheme token": a scheme other than "bearer" is 401 "invalid Authorization header"; otherwise the outcome is the verdict on the token, and a refusal is 401 "invalid token: " plus the error |
| Jwt.IssuedTokenAuthorizes | service/auth/jwt.go:76-84 | a token `CreateJWT` issued, still accepted by the library, reaches the handler with the id it was issued for |
| Jwt.BearerHeaderAuthorizes | service/auth/jwt.go:63-84 | the same for the header "Bearer " followed by the issued token |
| Jwt.SubjectOf | service/auth/jwt.go:76-82 | a subject is attached exactly when the `userId` claim is a string `Atoi` accepts, and it is the value `Atoi` reads; a missing or non-string claim attaches none |
| Jwt.SubjectReadsSignedDigits | service/auth/jwt.go:76-82 | every `userId` string of an optional sign and in-range digits is attached with its value, "+5" and "007" included |
| Sql.FirstScanError | service/user/store.go:33-38 | no error exactly when every row scans; otherwise the error of a failing row with all rows before it scanned |
| Sql.FirstScanErrorIsFirst | service/user/store.go:33-38 | the first failing row decides the error; rows after it are never looked at |
| UserStore.LookupFold | service/user/store.go:25-45 | a query error passes through; the first scan error aborts; otherwise the last row wins; no rows or a last row with ID 0 is "user not found"; a found user never has ID 0; the loop agrees with the loop-free `Lookup` |
| UserStore.GetUserByEmail | service/user/store.go:25-45 | as `LookupFold`, over the rows returned for the email |
| UserStore.GetUserByID | service/user/store.go:79-99 | as `LookupFold`, over the rows returned for the id |
| UserStore.CreateUser | service/user/store.go:71-76 | names, email and password are inserted as given; the only result is the statement's error |
| ProductStore.ProductOf | service/product/store.go:29-45 | a NULL image becomes "", a present one is copied, every other column is copied |
| ProductStore.ListProducts | service/product/store.go:18-49 | a query error or the first scan error gives no products; otherwise one product per row, in row order; the loop agrees with the loop-free `Products` |
| ProductStore.GetProductByID | service/product/store.go:51-77 | "no product, no error" exactly for `sql.ErrNoRows`; other errors pass through; a row becomes its product |
| ProductStore.CreateProduct | service/product/store.go:79-99 | on success only the id changes, to the inserted id; a statement error or a `LastInsertId` error leaves the product untouched and is returned as is |
| UserRoutes.HandleLogin | service/user/route.go:52-98 | 400 exactly for unreadable or invalid input, with no store call and the payload reader's message ("request body is empty", the decoder's error or the validator's text); a readable payload is first looked up by its email; every 401 is "invalid email or password"; an empty secret is 500; a signing error is 500 "failed to generate token: " plus the error; 200 exactly when the credentials match, a secret is set and signing succeeds; the body is then the issued token |
| UserRoutes.UnknownEmailLooksLikeWrongPassword | service/user/route.go:70-82 | an unknown email and a wrong password get identical responses |
| UserRoutes.EmptySecretNeedsExplicitSetting | service/user/route.go:84-88 | "JWT secret not configured" happens only when `JWT_SECRET` is set to the empty string |
| UserRoutes.LoginTokenOpensGate | service/user/route.go:89-97 | the token from a successful login, sent as "Bearer token", passes the gate with the user's id |
| UserRoutes.NewUser | service/user/route.go:138-143 | the user to persist carries the hash as its password, and its public view is the payload's names and email with ID 0 and no creation time |
| UserRoutes.HandleRegister | service/user/route.go:103-153 | a found email is 400 "user with email … already exists" after one lookup; a hashing error is 500 "failed to hash password: " plus the error; a user is created exactly when hashing is reached and succeeds, with the hash and never the plaintext; a store error is 500 with that error; 201 exactly when creation succeeds; the body has no password |
| UserRoutes.DuplicateOnlyForStoredRow | service/user/route.go:123-128 | with the SQL store, registration is refused as a duplicate exactly when the rows all scan and the last has a nonzero ID |
| UserRoutes.RegistrationTestCases | service/user/route_test.go:25-74 | with a store that finds no email, the valid payload is 201 and the one with email "123" is 400 |
| ProductRoutes.HandleListProducts | service/product/route.go:34-42 | a store error is 500 "failed to list products: " plus the error; otherwise 200 with the products |
| ProductRoutes.ProductToCreate | service/product/route.go:61-66 | the product sent to the store has the payload's name, description, price and quantity, ID 0, and no image or creation time |
| ProductRoutes.HandleCreateProduct | service/product/route.go:44-92 | invalid input is 400 with no store call; the store gets the payload's fields and nothing else; 500 on a store error; 201 echoing the stored product |
| ProductRoutes.HandleGetProduct | service/product/route.go:94-132 | a non-integer id is 400 "invalid id" with no store call; a store error is 500; no product is 404; a product is 200 "success" |
| ProductRoutes.ProductToUpdate | service/product/route.go:164-170 | the product sent to the store has the path id and the payload's name, description, price and quantity, and no image or creation time |
| ProductRoutes.HandleUpdateProduct | service/product/route.go:134-196 | the id is checked before the body; a payload id that differs from the path id is 400 "id mismatch" with no store call; matching ids always reach the store with the path id and the payload's fields; a store error is 500 with that error; success is 200 "product updated" with the data sent |
| ProductRoutes.HandleDeleteProduct | service/product/route.go:198-224 | a non-integer id is 400 with no store call; a store error is 500; otherwise 200 with zero-valued data, whether or not the product existed |
| ProductRoutes.ServeRoute | service/product/route.go:26-32 | every product route is behind the token gate: a refused request is 401 with no store call; an admitted one runs the route's handler once |
| ProductRoutes.EveryRouteNeedsToken | service/product/route.go:26-32 | a request without an Authorization header is 401 "missing Authorization header" on all five routes |
| ProductRoutes.CreateEchoesPayloadWithNewId | service/product/route.go:61-91 | with the SQL store, the 201 body is the payload's fields with the inserted id |
| ProductRoutes.GetMapsStoreOutcome | service/product/route.go:103-111 | with the SQL store, no row is 404, a failing query is 500, and a row is 200 with its columns |
| ProductRoutes.ListMapsStoreOutcome | service/product/route.go:34-42 | with the SQL store, no rows is 200 with an empty list; a failing query, or a row that fails to scan, is 500 "failed to list products: " plus its error |

## Left out

- I/O: HTTP transport, header canonicalisation, `gorilla/mux` routing and JSON encoding and decoding. The decoders are oracles; responses are values, not bytes.
- The encoding of a nil product slice: with zero rows `ListProducts` returns a nil slice, which Go encodes as JSON `null`. The model answers with an empty list.
- bcrypt (`auth.HashPassword`, `auth.ComparePassword`): oracles. The implementation of `ComparePassword` is not modelled; bcrypt's 72-byte password limit shows up only as a hashing error.
- golang-jwt internals (base64url segments, HMAC, claim validation at the current time): the `Library` oracle. The model keeps only the method dispatch the service itself writes.
- ParseJWT's final "invalid token" branch (service/auth/jwt.go:46-49): with golang-jwt v5, `jwt.Parse` returns an error for every invalid token and always yields `MapClaims`, so the branch cannot be taken. `Jwt.ParseJWT` passes the library's verdict through.
- Jwt.IssueClaims: the expiry is `now + ttl` in unbounded integers. Go's `time.Second * time.Duration(ttl)` wraps around for lifetimes above about 292 years; that wrap is not modelled.
- Jwt.CreateJWT: states the same expiry as `Jwt.IssueClaims`, without the `time.Duration` wrap-around.
- The request context value set by `RequireToken`: it is the `Invoke(subject)` entry of the call trace. No handler in service/user or service/product reads it.
- Text.Atoi: base prefixes and underscores are excluded, as `strconv.Atoi` does in base 10. The error values are `None`; their text is never shown to clients.
- Text.ToLowerAscii: lower-cases ASCII letters only, where `strings.ToLower` also folds other Unicode letters. No non-ASCII character lower-cases to a letter of "bearer", so the gate's decision is the same.
- The SQL text and the database itself: the stores get query outcomes (`Sql.Query`, `Sql.SingleRow`, `Sql.Exec`). `rows.Err()` and `rows.Close()` are ignored by the source and absent here.
- `UpdateProduct` and `DeleteProduct` in service/product/store.go:101-118: each returns its `Exec` error and nothing else. They appear only as the handlers' `update` and `delete` oracles.
- Product prices: `float64` values copied as opaque bit patterns (`Types.Price`). The model does no arithmetic on them.
- The validation tags of the product payloads: their type declarations are not part of this model, so the handlers take the validator's verdict as an oracle.
- `types.RegisterUserPayload` is declared both in types/types.go and in types/payloads.go. Go rejects the duplicate; the model has one `RegisterPayload`.
- cmd/api/api.go wires only the user routes; the product routes are modelled as `RegisterRoutes` declares them.
- `godotenv.Load` is folded into the `Env` map the configuration is read from.

=== FILE: configuration.dfy ===
/** Configuration read from the process environment at start-up
    (config/env.go). The environment is a map from variable name to value,
    taken after the optional `.env` file has been merged into it. */
module Configuration {
  import opened Outcomes
  import opened Text

  type Env = map<string, string>

  /** The values the rest of the service reads from `config.Envs`. */
  datatype Config = Config(
    publicHost: string,
    port: string,
    dbUser: string,
    dbPassword: string,
    dbAddress: string,
    dbName: string,
    jwtExpirationSeconds: Int64,
    jwtSecret: string)

  const DefaultExpirationSeconds: Int64 := 3600 * 24
  const DefaultSecret: string := "asdfasdfasdf"

  /** `getEnv`: the variable's value whenever it is set, even when it is set
      to the empty string; the fallback only when it is unset. */
  function GetEnv(env: Env, key: string, fallback: string): (v: string)
    ensures key in env ==> v == env[key]
    ensures key !in env ==> v == fallback
  {
    if key in env then env[key] else fallback
  }

  /** `getEnvAsInt`: the integer `Sscanf("%d")` reads from the variable, or
      the fallback when the variable is unset or holds no readable integer. */
  function GetEnvAsInt(env: Env, key: string, fallback: Int64): (v: Int64)
    ensures key !in env ==> v == fallback
    ensures key in env && ScanDecimal(env[key]).None? ==> v == fallback
    ensures key in env && ScanDecimal(env[key]).Some? ==> v == ScanDecimal(env[key]).value
  {
    if key in env then ScanDecimal(env[key]).GetOr(fallback) else fallback
  }

  /** `initConfig`: each field is its variable's value when set, and its
      fallback when unset; the database address joins host and port with a
      colon. A secret set to "" stays empty, since only an unset variable
      falls back. */
  function InitConfig(env: Env): (c: Config)
    ensures c.publicHost == GetEnv(env, "PUBLIC_HOST", "http://localhost")
    ensures c.port == GetEnv(env, "PORT", "8080")
    ensures c.dbUser == GetEnv(env, "DB_USER", "root")
    ensures c.dbPassword == GetEnv(env, "DB_PASSWORD", "")
    ensures c.dbAddress == GetEnv(env, "DB_HOST", "127.0.0.1") + ":" + GetEnv(env, "DB_PORT", "3306")
    ensures c.dbName == GetEnv(env, "DB_NAME", "go-backend-ecom")
    ensures c.jwtExpirationSeconds == GetEnvAsInt(env, "JWT_EXPIRATION_SECONDS", DefaultExpirationSeconds)
    ensures c.jwtSecret == GetEnv(env, "JWT_SECRET", DefaultSecret)
    ensures c.jwtSecret == "" <==> "JWT_SECRET" in env && env["JWT_SECRET"] == ""
    ensures "JWT_EXPIRATION_SECONDS" !in env ==> c.jwtExpirationSeconds == 86400
  {
    Config(
      publicHost := GetEnv(env, "PUBLIC_HOST", "http://localhost"),
      port := GetEnv(env, "PORT", "8080"),
      dbUser := GetEnv(env, "DB_USER", "root"),
      dbPassword := GetEnv(env, "DB_PASSWORD", ""),
      dbAddress := GetEnv(env, "DB_HOST", "127.0.0.1") + ":" + GetEnv(env, "DB_PORT", "3306"),
      dbName := GetEnv(env, "DB_NAME", "go-backend-ecom"),
      jwtExpirationSeconds := GetEnvAsInt(env, "JWT_EXPIRATION_SECONDS", DefaultExpirationSeconds),
      jwtSecret := GetEnv(env, "JWT_SECRET", DefaultSecret))
  }

  /** With nothing set, every field takes its documented default. */
  lemma EmptyEnvironmentDefaults()
    ensures InitConfig(map[]) == Config(
      "http://localhost", "8080", "root", "", "127.0.0.1:3306", "go-backend-ecom", 86400, "asdfasdfasdf")
  {
  }

  /** An expiration written the way `Itoa` writes numbers, possibly after
      blanks and before a unit suffix such as "s", is taken as given. */
  lemma ExpirationIsRead(env: Env, pad: string, seconds: Int64, tail: string)
    requires forall i | 0 <= i < |pad| :: IsScanBlank(pad[i])
    requires tail == [] || !IsDigit(tail[0])
    requires "JWT_EXPIRATION_SECONDS" in env && env["JWT_EXPIRATION_SECONDS"] == pad + Itoa(seconds) + tail
    ensures InitConfig(env).jwtExpirationSeconds == seconds
  {
    ScanDecimalItoa(pad, seconds, tail);
  }

  /** An expiration with no digits in it falls back to 24 hours. */
  lemma UnreadableExpirationFallsBack(env: Env)
    requires "JWT_EXPIRATION_SECONDS" in env
    requires forall i | 0 <= i < |env["JWT_EXPIRATION_SECONDS"]| :: !IsDigit(env["JWT_EXPIRATION_SECONDS"][i])
    ensures InitConfig(env).jwtExpirationSeconds == 86400
  {
  }
}

=== FILE: jwt.dfy ===
/** Token issuance, verification and the bearer-token gate
    (service/auth/jwt.go). Tokens are JSON Web Tokens (RFC 7519) signed with
    HMAC-SHA256, `HS256` of section 3.2 of RFC 7518, and presented with the
    `Bearer` scheme of section 2.1 of RFC 6750. Encoding, signing, signature
    checking and the expiry check belong to the golang-jwt library and are
    taken here as the oracles of a `Library` value. */
module Jwt {
  import opened Outcomes
  import opened Text
  import opened Types

  /** The signing methods golang-jwt knows, by family. */
  datatype SigningMethod =
    | Hmac(name: string)
    | Rsa(name: string)
    | RsaPss(name: string)
    | Ecdsa(name: string)
    | Ed25519
    | Unsigned

  /** The `alg` header value naming a method. */
  function AlgName(m: SigningMethod): string {
    match m
    case Hmac(n) => n
    case Rsa(n) => n
    case RsaPss(n) => n
    case Ecdsa(n) => n
    case Ed25519 => "EdDSA"
    case Unsigned => "none"
  }

  const HS256: SigningMethod := Hmac("HS256")

  /** A claim value as JSON decoding leaves it in a `MapClaims`. */
  datatype ClaimValue = StringClaim(text: string) | NumberClaim(number: int) | OtherClaim

  type Claims = map<string, ClaimValue>

  /** The library, as three oracles.
      `decode`: split the token, decode its segments and look up the method
      its header names; an error for a malformed token or an unknown method.
      `verify`: check the signature with the given key and validate the
      registered claims (`exp` among them) at the current time.
      `sign`: encode the claims and sign them with the method and key. */
  datatype Library = Library(
    decode: string -> Result<SigningMethod>,
    verify: (string, string) -> Result<Claims>,
    sign: (SigningMethod, Claims, string) -> Result<string>)

  /** The subject the gate attaches: the `userId` claim, when it is a string
      that `strconv.Atoi` accepts. */
  function SubjectOf(c: Claims): (r: Option<Int64>)
    ensures r.Some? ==> "userId" in c && c["userId"].StringClaim? && Atoi(c["userId"].text) == r
    ensures "userId" !in c || !c["userId"].StringClaim? ==> r.None?
    ensures "userId" in c && c["userId"].StringClaim? && Atoi(c["userId"].text).Some? ==> r == Atoi(c["userId"].text)
  {
    if "userId" in c && c["userId"].StringClaim? then Atoi(c["userId"].text) else None
  }

  /** Any `userId` string `strconv.Atoi` accepts is attached, not only the
      spellings `Itoa` produces: "+5" and "007" are the ids 5 and 7. */
  lemma SubjectReadsSignedDigits(c: Claims, sign: string, d: string)
    requires sign == "" || sign == "+" || sign == "-"
    requires |d| > 0 && AllDigits(d)
    requires IsInt64(Signed(sign == "-", d))
    requires "userId" in c && c["userId"] == StringClaim(sign + d)
    ensures SubjectOf(c) == Some(Signed(sign == "-", d))
  {
    AtoiSignedDigits(sign, d);
  }

  /** The claims `CreateJWT` signs: the id as a decimal string, which the
      gate reads back as the same id, and the expiry `now + ttl` in Unix
      seconds (section 4.1.4 of RFC 7519). */
  function IssueClaims(userId: Int64, now: int, ttl: Int64): (c: Claims)
    ensures c.Keys == {"userId", "exp"}
    ensures c["exp"] == NumberClaim(now + ttl)
    ensures c["userId"].StringClaim? && SubjectOf(c) == Some(userId)
    ensures c["userId"] == StringClaim(Itoa(userId))
  {
    AtoiItoa(userId);
    map["userId" := StringClaim(Itoa(userId)), "exp" := NumberClaim(now + ttl)]
  }

  /** `CreateJWT(secret, userId)` at time `now` (Unix seconds) with the
      configured lifetime `ttl`: the token is what HS256 signing with the
      secret yields for claims whose subject reads back as `userId` and whose
      expiry is `now + ttl`; a signing error is returned as is. */
  function CreateJWT(lib: Library, secret: string, userId: Int64, now: int, ttl: Int64): (r: Result<string>)
    ensures exists c: Claims ::
              && r == lib.sign(HS256, c, secret)
              && c.Keys == {"userId", "exp"}
              && c["userId"] == StringClaim(Itoa(userId))
              && SubjectOf(c) == Some(userId)
              && c["exp"] == NumberClaim(now + ttl)
  {
    var c := IssueClaims(userId, now, ttl);
    lib.sign(HS256, c, secret)
  }

  /** The error golang-jwt v5 returns when the key function refuses a token. */
  function KeyfuncError(m: SigningMethod): string {
    "token is unverifiable: error while executing keyfunc: unexpected signing method: " + AlgName(m)
  }

  /** `ParseJWT`: only an HMAC-family token is verified, and then with the
      configured secret; any other method is refused before the secret is
      handed to the library; claims come back only for a valid token. */
  function ParseJWT(lib: Library, token: string, secret: string): (r: Result<Claims>)
    ensures lib.decode(token).Err? ==> r == Err(lib.decode(token).error)
    ensures lib.decode(token).Ok? && !lib.decode(token).value.Hmac? ==> r == Err(KeyfuncError(lib.decode(token).value))
    ensures lib.decode(token).Ok? && lib.decode(token).value.Hmac? ==> r == lib.verify(token, secret)
    ensures r.Ok? ==> lib.decode(token).Ok? && lib.decode(token).value.Hmac?
  {
    match lib.decode(token)
    case Err(e) => Err(e)
    case Ok(m) =>
      if !m.Hmac? then Err(KeyfuncError(m)) else lib.verify(token, secret)
  }

  /** The outcome for a token that is not HMAC-signed does not depend on the
      verifier at all: no signature check is ever attempted with the secret,
      whatever the token says about itself (the "none" method included). */
  lemma NonHmacNeverVerified(lib1: Library, lib2: Library, token: string, secret1: string, secret2: string)
    requires lib1.decode(token) == lib2.decode(token)
    requires lib1.decode(token).Ok? && !lib1.decode(token).value.Hmac?
    ensures ParseJWT(lib1, token, secret1) == ParseJWT(lib2, token, secret2)
    ensures ParseJWT(lib1, token, secret1).Err?
  {
  }

  /** The header has a space, and the text before the first one is
      "bearer" in any mix of cases. */
  predicate BearerScheme(header: string) {
    var parts := SplitFirstSpace(header);
    |parts| == 2 && ToLowerAscii(parts[0]) == "bearer"
  }

  /** The text after the first space of the header. */
  function Credential(header: string): string
    requires BearerScheme(header)
  {
    SplitFirstSpace(header)[1]
  }

  /** The gate lets the request through. */
  predicate Admits(lib: Library, secret: string, header: string) {
    header != "" && BearerScheme(header) && ParseJWT(lib, Credential(header), secret).Ok?
  }

  /** `RequireToken(next)` serving a request whose `Authorization` header is
      `header` (the empty string when there is none). A refused request is
      answered 401 without calling `next`; an admitted one calls `next`
      exactly once, with the subject from the token's claims. */
  function RequireToken(lib: Library, secret: string, header: string, next: Option<Int64> -> Served): (r: Served)
    ensures header == "" ==> r == Reply(StatusUnauthorized, "missing Authorization header")
    ensures !Admits(lib, secret, header) ==> r.calls == [] && r.response.status == StatusUnauthorized
    ensures Admits(lib, secret, header) ==>
      var s := SubjectOf(ParseJWT(lib, Credential(header), secret).value);
      r == Served(next(s).response, [Invoke(s)] + next(s).calls)
    ensures |r.calls| > 0 <==> Admits(lib, secret, header)
  {
    if header == "" then
      Reply(StatusUnauthorized, "missing Authorization header")
    else
      var parts := SplitFirstSpace(header);
      if |parts| != 2 || ToLowerAscii(parts[0]) != "bearer" then
        Reply(StatusUnauthorized, "invalid Authorization header")
      else
        match ParseJWT(lib, parts[1], secret)
        case Err(e) => Reply(StatusUnauthorized, "invalid token: " + e)
        case Ok(claims) =>
          var s := SubjectOf(claims);
          Served(next(s).response, [Invoke(s)] + next(s).calls)
  }

  /** A non-empty header without a space is refused as malformed. */
  lemma GateNeedsSpace(lib: Library, secret: string, header: string, next: Option<Int64> -> Served)
    requires header != "" && ' ' !in header
    ensures RequireToken(lib, secret, header, next) == Reply(StatusUnauthorized, "invalid Authorization header")
  {
  }

  /** Every header with a space is the scheme, the first space and the rest;
      the gate decides on exactly those two parts: the scheme must be
      "bearer" in any case, and the rest, spaces included and possibly empty,
      is the token handed to verification. */
  lemma GateSplitsAtFirstSpace(lib: Library, secret: string, scheme: string, token: string, next: Option<Int64> -> Served)
    requires ' ' !in scheme
    ensures var r := RequireToken(lib, secret, scheme + " " + token, next);
      if !MatchesIgnoringCase(scheme, "bearer") then
        r == Reply(StatusUnauthorized, "invalid Authorization header")
      else match ParseJWT(lib, token, secret)
        case Err(e) => r == Reply(StatusUnauthorized, "invalid token: " + e)
        case Ok(c) => r == Served(next(SubjectOf(c)).response, [Invoke(SubjectOf(c))] + next(SubjectOf(c)).calls)
  {
    SplitAtFirstSpace(scheme, token);
    ToLowerMatches(scheme, "bearer");
  }

  /** A token `CreateJWT` issued, presented under the bearer scheme while the
      library still accepts it, reaches the handler with the id it was issued
      for: `Itoa` at issuance and `Atoi` at the gate agree on every id. */
  lemma IssuedTokenAuthorizes(
    lib: Library, secret: string, userId: Int64, now: int, ttl: Int64,
    scheme: string, next: Option<Int64> -> Served)
    requires CreateJWT(lib, secret, userId, now, ttl).Ok?
    requires var token := CreateJWT(lib, secret, userId, now, ttl).value;
      lib.decode(token) == Ok(HS256) && lib.verify(token, secret) == Ok(IssueClaims(userId, now, ttl))
    requires ' ' !in scheme && MatchesIgnoringCase(scheme, "bearer")
    ensures var token := CreateJWT(lib, secret, userId, now, ttl).value;
      RequireToken(lib, secret, scheme + " " + token, next)
        == Served(next(Some(userId)).response, [Invoke(Some(userId))] + next(Some(userId)).calls)
  {
    var token := CreateJWT(lib, secret, userId, now, ttl).value;
    GateSplitsAtFirstSpace(lib, secret, scheme, token, next);
  }

  /** The same for the header clients send, "Bearer " followed by the token. */
  lemma BearerHeaderAuthorizes(
    lib: Library, secret: string, userId: Int64, now: int, ttl: Int64, next: Option<Int64> -> Served)
    requires CreateJWT(lib, secret, userId, now, ttl).Ok?
    requires var token := CreateJWT(lib, secret, userId, now, ttl).value;
      lib.decode(token) == Ok(HS256) && lib.verify(token, secret) == Ok(IssueClaims(userId, now, ttl))
    ensures var token := CreateJWT(lib, secret, userId, now, ttl).value;
      RequireToken(lib, secret, "Bearer " + token, next)
        == Served(next(Some(userId)).response, [Invoke(Some(userId))] + next(Some(userId)).calls)
  {
    var token := CreateJWT(lib, secret, userId, now, ttl).value;
    assert "Bearer " + token == "Bearer" + " " + token;
    CapitalisedBearer();
    IssuedTokenAuthorizes(lib, secret, userId, now, ttl, "Bearer", next);
  }

  /** "Bearer" has no space and spells "bearer" with a capital letter. */
  lemma CapitalisedBearer()
    ensures ' ' !in "Bearer" && MatchesIgnoringCase("Bearer", "bearer")
  {
  }
}

=== FILE: outcomes.dfy ===
/** Failure-carrying values. Go returns `(value, error)` pairs; an error is
    represented by its message, which is all that reaches an HTTP response. */
module Outcomes {

  /** A value that may be absent (a nil pointer, an unset variable, a context
      without a subject). */
  datatype Option<+T> = None | Some(value: T) {

    /** The value, or `default` when there is none. */
    function GetOr(default: T): T {
      match this
      case Some(v) => v
      case None => default
    }
  }

  /** Either a value or the message of the error that replaced it. */
  datatype Result<+T> = Ok(value: T) | Err(error: string)
}

=== FILE: payloads.dfy ===
/** The `validate` struct tags of the user payloads (types/payloads.go) and the
    way the validator applies them: every field in declaration order, each
    field's tags left to right, at most one error per field (the first tag it
    fails). Whether a string is email-shaped is the validator's own regular
    expression, taken here as the predicate `isEmail`. */
module Payloads {
  import opened Outcomes
  import opened Types

  datatype Tag = Required | Email | Min(n: nat)

  function TagName(t: Tag): string {
    match t
    case Required => "required"
    case Email => "email"
    case Min(_) => "min"
  }

  /** Whether a string field satisfies one tag; `min` counts characters. */
  predicate Passes(t: Tag, value: string, isEmail: string -> bool) {
    match t
    case Required => value != ""
    case Email => isEmail(value)
    case Min(n) => |value| >= n
  }

  /** The first tag `value` fails, if any. */
  function FirstFailure(value: string, tags: seq<Tag>, isEmail: string -> bool): (r: Option<Tag>)
    ensures r.None? <==> forall i | 0 <= i < |tags| :: Passes(tags[i], value, isEmail)
    ensures r.Some? ==> r.value in tags && !Passes(r.value, value, isEmail)
    ensures r.Some? ==> exists k | 0 <= k < |tags| :: r.value == tags[k] && forall j | 0 <= j < k :: Passes(tags[j], value, isEmail)
  {
    if |tags| == 0 then None
    else if !Passes(tags[0], value, isEmail) then Some(tags[0])
    else FirstFailure(value, tags[1..], isEmail)
  }

  /** One failed field: the struct-qualified name, the field, the tag. */
  datatype FieldError = FieldError(namespace: string, field: string, tag: string)

  /** A field of a payload: its name, its value and its tags. */
  datatype Field = Field(name: string, value: string, tags: seq<Tag>)

  /** `Validate.Struct`: one error per failing field, in field order. */
  function ValidateFields(structName: string, fields: seq<Field>, isEmail: string -> bool): (errors: seq<FieldError>)
    ensures |errors| <= |fields|
    ensures errors == [] <==> forall i | 0 <= i < |fields| :: FirstFailure(fields[i].value, fields[i].tags, isEmail).None?
    ensures forall e | e in errors :: exists i | 0 <= i < |fields| ::
      FirstFailure(fields[i].value, fields[i].tags, isEmail).Some?
      && e == FieldError(structName + "." + fields[i].name, fields[i].name, TagName(FirstFailure(fields[i].value, fields[i].tags, isEmail).value))
    ensures forall i | 0 <= i < |fields| && FirstFailure(fields[i].value, fields[i].tags, isEmail).Some? ::
      FieldError(structName + "." + fields[i].name, fields[i].name, TagName(FirstFailure(fields[i].value, fields[i].tags, isEmail).value)) in errors
  {
    if |fields| == 0 then []
    else
      var f := fields[0];
      var head := match FirstFailure(f.value, f.tags, isEmail)
        case None => []
        case Some(t) => [FieldError(structName + "." + f.name, f.name, TagName(t))];
      head + ValidateFields(structName, fields[1..], isEmail)
  }

  /** The errors of consecutive runs of fields are the errors of each run,
      one after the other: the errors come in field order, and each field
      contributes its own error, once, or none. */
  lemma {:induction false} ValidateFieldsConcat(structName: string, a: seq<Field>, b: seq<Field>, isEmail: string -> bool)
    ensures ValidateFields(structName, a + b, isEmail) == ValidateFields(structName, a, isEmail) + ValidateFields(structName, b, isEmail)
  {
    if |a| == 0 {
      assert a + b == b;
    } else {
      assert (a + b)[0] == a[0];
      assert (a + b)[1..] == a[1..] + b;
      ValidateFieldsConcat(structName, a[1..], b, isEmail);
    }
  }

  /** The tags of `RegisterUserPayload`, fields in declaration order: each
      field is `required`, the email is also `email`, and the password is
      also `min=6`. */
  function RegisterFields(p: RegisterPayload): (fs: seq<Field>)
    ensures |fs| == 4
    ensures fs[0].value == p.firstName && fs[1].value == p.lastName
    ensures fs[2].value == p.email && fs[3].value == p.password
    ensures forall i | 0 <= i < |fs| :: |fs[i].tags| > 0 && fs[i].tags[0] == Required
    ensures Email in fs[2].tags && Min(6) in fs[3].tags
    ensures forall i | 0 <= i < |fs| && i != 2 :: Email !in fs[i].tags
  {
    [ Field("FirstName", p.firstName, [Required]),
      Field("LastName", p.lastName, [Required]),
      Field("Email", p.email, [Required, Email]),
      Field("Password", p.password, [Required, Min(6)]) ]
  }

  /** The tags of `LoginUserPayload`: both fields are `required`, the email
      is also `email`, and the password has no minimum length. */
  function LoginFields(p: LoginPayload): (fs: seq<Field>)
    ensures |fs| == 2
    ensures fs[0].value == p.email && fs[1].value == p.password
    ensures |fs[0].tags| > 0 && fs[0].tags[0] == Required && Email in fs[0].tags
    ensures fs[1].tags == [Required]
  {
    [ Field("Email", p.email, [Required, Email]),
      Field("Password", p.password, [Required]) ]
  }

  /** A registration is accepted exactly when both names are non-empty, the
      email is present and email-shaped, and the password has at least six
      characters. */
  function ValidateRegister(p: RegisterPayload, isEmail: string -> bool): (errors: seq<FieldError>)
    ensures errors == [] <==>
      p.firstName != "" && p.lastName != "" && p.email != "" && isEmail(p.email) && |p.password| >= 6
    ensures |errors| <= 4
  {
    var fields := RegisterFields(p);
    var r := ValidateFields("RegisterUserPayload", fields, isEmail);
    assert FirstFailure(p.password, [Required, Min(6)], isEmail).None? <==> |p.password| >= 6 by {
      assert [Required, Min(6)][1..] == [Min(6)];
    }
    assert FirstFailure(p.email, [Required, Email], isEmail).None? <==> p.email != "" && isEmail(p.email) by {
      assert [Required, Email][1..] == [Email];
    }
    assert FirstFailure(p.firstName, [Required], isEmail).None? <==> p.firstName != "";
    assert FirstFailure(p.lastName, [Required], isEmail).None? <==> p.lastName != "";
    assert (forall i | 0 <= i < 4 :: FirstFailure(fields[i].value, fields[i].tags, isEmail).None?) <==>
      && FirstFailure(fields[0].value, fields[0].tags, isEmail).None?
      && FirstFailure(fields[1].value, fields[1].tags, isEmail).None?
      && FirstFailure(fields[2].value, fields[2].tags, isEmail).None?
      && FirstFailure(fields[3].value, fields[3].tags, isEmail).None?;
    r
  }

  /** A login is accepted exactly when the email is present and
      email-shaped and the password is non-empty; there is no minimum
      length. */
  function ValidateLogin(p: LoginPayload, isEmail: string -> bool): (errors: seq<FieldError>)
    ensures errors == [] <==> p.email != "" && isEmail(p.email) && p.password != ""
    ensures |errors| <= 2
  {
    var fields := LoginFields(p);
    var r := ValidateFields("LoginUserPayload", fields, isEmail);
    assert FirstFailure(p.email, [Required, Email], isEmail).None? <==> p.email != "" && isEmail(p.email) by {
      assert [Required, Email][1..] == [Email];
    }
    assert FirstFailure(p.password, [Required], isEmail).None? <==> p.password != "";
    assert (forall i | 0 <= i < 2 :: FirstFailure(fields[i].value, fields[i].tags, isEmail).None?) <==>
      && FirstFailure(fields[0].value, fields[0].tags, isEmail).None?
      && FirstFailure(fields[1].value, fields[1].tags, isEmail).None?;
    r
  }

  /** The validator's text for one failed field. */
  function FieldErrorText(e: FieldError): string {
    "Key: '" + e.namespace + "' Error:Field validation for '" + e.field + "' failed on the '" + e.tag + "' tag"
  }

  /** The validator's text for a list of failed fields: one line each. */
  function ValidationText(errors: seq<FieldError>): string {
    if |errors| == 0 then ""
    else if |errors| == 1 then FieldErrorText(errors[0])
    else FieldErrorText(errors[0]) + "\n" + ValidationText(errors[1..])
  }

  /** The steps every handler with a body takes first: a nil body, JSON that
      does not decode into the payload, and a payload the validator rejects
      each end the request; the error is the message of its 400 response. */
  function ReadPayload<P>(body: RequestBody, decode: string -> Result<P>, validate: P -> seq<FieldError>): (r: Result<P>)
    ensures body.NoBody? ==> r == Err("request body is empty")
    ensures body.RawBody? && decode(body.text).Err? ==> r == Err(decode(body.text).error)
    ensures r.Ok? <==> body.RawBody? && decode(body.text).Ok? && validate(decode(body.text).value) == []
    ensures r.Ok? ==> r.value == decode(body.text).value
    ensures body.RawBody? && decode(body.text).Ok? && validate(decode(body.text).value) != [] ==>
      r == Err(ValidationText(validate(decode(body.text).value)))
  {
    match body
    case NoBody => Err("request body is empty")
    case RawBody(text) =>
      match decode(text)
      case Err(e) => Err(e)
      case Ok(p) =>
        var errors := validate(p);
        if errors != [] then Err(ValidationText(errors)) else Ok(p)
  }
}

=== FILE: product_routes.dfy ===
/** The product handlers and their routes (service/product/route.go). Every
    route is wrapped in the bearer-token gate. */
module ProductRoutes {
  import opened Outcomes
  import opened Text
  import opened Types
  import opened Payloads
  import opened Jwt
  import opened Sql
  import ProductStore

  /** The handlers' collaborators. JSON decoding, the validation of the
      product payloads and the store are oracles. The store's `create`
      yields the product as the store left it, or the error it returned. */
  datatype ProductDeps = ProductDeps(
    decodeCreate: string -> Result<CreateProductPayload>,
    decodeUpdate: string -> Result<UpdateProductPayload>,
    validateCreate: CreateProductPayload -> seq<FieldError>,
    validateUpdate: UpdateProductPayload -> seq<FieldError>,
    list: Result<seq<Product>>,
    get: Int64 -> Result<Option<Product>>,
    create: Product -> Result<Product>,
    update: Product -> Option<string>,
    delete: Int64 -> Option<string>)

  const InvalidId: string := "invalid id"

  /** `handleListProducts`. */
  function HandleListProducts(deps: ProductDeps): (r: Served)
    ensures r.calls == [ListProducts]
    ensures deps.list.Err? ==> r.response == ErrorResponse(StatusInternalServerError, "failed to list products: " + deps.list.error)
    ensures deps.list.Ok? ==> r.response == Response(StatusOK, ProductListBody(deps.list.value))
  {
    match deps.list
    case Err(e) => Served(ErrorResponse(StatusInternalServerError, "failed to list products: " + e), [ListProducts])
    case Ok(products) => Served(Response(StatusOK, ProductListBody(products)), [ListProducts])
  }

  function CreatePayloadOf(deps: ProductDeps, body: RequestBody): Result<CreateProductPayload> {
    ReadPayload(body, deps.decodeCreate, deps.validateCreate)
  }

  /** The product `handleCreateProduct` hands to the store: the payload's
      fields, and no ID, image or creation time. */
  function ProductToCreate(p: CreateProductPayload): (prod: Product)
    ensures prod.id == 0 && prod.image == "" && prod.createdAt == ""
    ensures DataOf(prod) == ProductData(0, p.name, p.description, p.price, p.quantity, "")
  {
    Product(0, p.name, p.description, "", p.price, p.quantity, "")
  }

  /** `handleCreateProduct`: 400 for unreadable or invalid input without a
      store call; 500 for a store error; otherwise 201 echoing the product as
      the store left it. */
  function HandleCreateProduct(deps: ProductDeps, body: RequestBody): (r: Served)
    ensures CreatePayloadOf(deps, body).Err? ==> r == Reply(StatusBadRequest, CreatePayloadOf(deps, body).error)
    ensures CreatePayloadOf(deps, body).Ok? ==>
      var sent := ProductToCreate(CreatePayloadOf(deps, body).value);
      && r.calls == [CreateProduct(sent)]
      && (deps.create(sent).Err? ==> r.response == ErrorResponse(StatusInternalServerError, deps.create(sent).error))
      && (deps.create(sent).Ok? ==> r.response == Response(StatusCreated, ProductBody("product created", DataOf(deps.create(sent).value))))
  {
    match CreatePayloadOf(deps, body)
    case Err(e) => Reply(StatusBadRequest, e)
    case Ok(p) =>
      var sent := ProductToCreate(p);
      match deps.create(sent)
      case Err(e) => Served(ErrorResponse(StatusInternalServerError, e), [CreateProduct(sent)])
      case Ok(stored) => Served(Response(StatusCreated, ProductBody("product created", DataOf(stored))), [CreateProduct(sent)])
  }

  /** `handleGetProduct`: a path id `Atoi` refuses is 400 before the store is
      asked; a store error is 500, no product is 404, a product is 200. */
  function HandleGetProduct(deps: ProductDeps, pathId: string): (r: Served)
    ensures Atoi(pathId).None? ==> r == Reply(StatusBadRequest, InvalidId)
    ensures Atoi(pathId).Some? ==>
      var id := Atoi(pathId).value;
      && r.calls == [GetProduct(id)]
      && (deps.get(id).Err? ==> r.response == ErrorResponse(StatusInternalServerError, deps.get(id).error))
      && (deps.get(id) == Ok(None) ==> r.response == ErrorResponse(StatusNotFound, "product not found"))
      && (deps.get(id).Ok? && deps.get(id).value.Some? ==>
            r.response == Response(StatusOK, ProductBody("success", DataOf(deps.get(id).value.value))))
  {
    match Atoi(pathId)
    case None => Reply(StatusBadRequest, InvalidId)
    case Some(id) =>
      match deps.get(id)
      case Err(e) => Served(ErrorResponse(StatusInternalServerError, e), [GetProduct(id)])
      case Ok(None) => Served(ErrorResponse(StatusNotFound, "product not found"), [GetProduct(id)])
      case Ok(Some(p)) => Served(Response(StatusOK, ProductBody("success", DataOf(p))), [GetProduct(id)])
  }

  function UpdatePayloadOf(deps: ProductDeps, body: RequestBody): Result<UpdateProductPayload> {
    ReadPayload(body, deps.decodeUpdate, deps.validateUpdate)
  }

  /** The product `handleUpdateProduct` hands to the store: the path id with
      the payload's name, description, price and quantity. */
  function ProductToUpdate(id: Int64, p: UpdateProductPayload): (prod: Product)
    ensures prod.image == "" && prod.createdAt == ""
    ensures DataOf(prod) == ProductData(id, p.name, p.description, p.price, p.quantity, "")
  {
    Product(id, p.name, p.description, "", p.price, p.quantity, "")
  }

  /** `handleUpdateProduct`: the path id is checked before the body; a
      payload id that differs from the path id is 400 "id mismatch"; only
      then is the store called. */
  function HandleUpdateProduct(deps: ProductDeps, pathId: string, body: RequestBody): (r: Served)
    ensures Atoi(pathId).None? ==> r == Reply(StatusBadRequest, InvalidId)
    ensures Atoi(pathId).Some? && UpdatePayloadOf(deps, body).Err? ==>
      r == Reply(StatusBadRequest, UpdatePayloadOf(deps, body).error)
    ensures Atoi(pathId).Some? && UpdatePayloadOf(deps, body).Ok? && UpdatePayloadOf(deps, body).value.id != Atoi(pathId).value ==>
      r == Reply(StatusBadRequest, "id mismatch")
    ensures r.calls != [] ==>
      && Atoi(pathId).Some? && UpdatePayloadOf(deps, body).Ok?
      && UpdatePayloadOf(deps, body).value.id == Atoi(pathId).value
      && r.calls == [UpdateProduct(ProductToUpdate(Atoi(pathId).value, UpdatePayloadOf(deps, body).value))]
    ensures r.response.status == StatusOK ==>
      var sent := ProductToUpdate(Atoi(pathId).value, UpdatePayloadOf(deps, body).value);
      r.calls == [UpdateProduct(sent)] && deps.update(sent).None?
      && r.response.body == ProductBody("product updated", DataOf(sent))
    ensures Atoi(pathId).Some? && UpdatePayloadOf(deps, body).Ok? && UpdatePayloadOf(deps, body).value.id == Atoi(pathId).value ==>
      var sent := ProductToUpdate(Atoi(pathId).value, UpdatePayloadOf(deps, body).value);
      && r.calls == [UpdateProduct(sent)]
      && (deps.update(sent).Some? ==> r.response == ErrorResponse(StatusInternalServerError, deps.update(sent).value))
      && (deps.update(sent).None? ==> r.response == Response(StatusOK, ProductBody("product updated", DataOf(sent))))
    ensures r.response.status in {StatusOK, StatusBadRequest, StatusInternalServerError}
  {
    match Atoi(pathId)
    case None => Reply(StatusBadRequest, InvalidId)
    case Some(id) =>
      match UpdatePayloadOf(deps, body)
      case Err(e) => Reply(StatusBadRequest, e)
      case Ok(p) =>
        if p.id != id then Reply(StatusBadRequest, "id mismatch")
        else
          var sent := ProductToUpdate(id, p);
          match deps.update(sent)
          case Some(e) => Served(ErrorResponse(StatusInternalServerError, e), [UpdateProduct(sent)])
          case None => Served(Response(StatusOK, ProductBody("product updated", DataOf(sent))), [UpdateProduct(sent)])
  }

  /** `handleDeleteProduct`: there is no existence check, so any id the
      store accepts, present or not, is 200 with zero-valued data. */
  function HandleDeleteProduct(deps: ProductDeps, pathId: string): (r: Served)
    ensures Atoi(pathId).None? ==> r == Reply(StatusBadRequest, InvalidId)
    ensures Atoi(pathId).Some? ==>
      var id := Atoi(pathId).value;
      && r.calls == [DeleteProduct(id)]
      && (deps.delete(id).Some? ==> r.response == ErrorResponse(StatusInternalServerError, deps.delete(id).value))
      && (deps.delete(id).None? ==> r.response == Response(StatusOK, ProductBody("product deleted", ZeroData)))
  {
    match Atoi(pathId)
    case None => Reply(StatusBadRequest, InvalidId)
    case Some(id) =>
      match deps.delete(id)
      case Some(e) => Served(ErrorResponse(StatusInternalServerError, e), [DeleteProduct(id)])
      case None => Served(Response(StatusOK, ProductBody("product deleted", ZeroData)), [DeleteProduct(id)])
  }

  datatype Endpoint = ListEndpoint | CreateEndpoint | GetEndpoint | UpdateEndpoint | DeleteEndpoint

  datatype Route = Route(httpMethod: string, path: string, endpoint: Endpoint)

  /** The routes `RegisterRoutes` attaches. */
  const Routes: seq<Route> := [
    Route("GET", "/products", ListEndpoint),
    Route("POST", "/products", CreateEndpoint),
    Route("GET", "/products/{id}", GetEndpoint),
    Route("PUT", "/products/{id}", UpdateEndpoint),
    Route("DELETE", "/products/{id}", DeleteEndpoint)
  ]

  /** A request as the product routes see it: the `Authorization` header
      (empty when absent), the `{id}` path variable, the body. */
  datatype ProductRequest = ProductRequest(authorization: string, pathId: string, body: RequestBody)

  function Dispatch(deps: ProductDeps, e: Endpoint, req: ProductRequest): Served {
    match e
    case ListEndpoint => HandleListProducts(deps)
    case CreateEndpoint => HandleCreateProduct(deps, req.body)
    case GetEndpoint => HandleGetProduct(deps, req.pathId)
    case UpdateEndpoint => HandleUpdateProduct(deps, req.pathId, req.body)
    case DeleteEndpoint => HandleDeleteProduct(deps, req.pathId)
  }

  /** Serving a request on a registered route: the handler runs behind
      `RequireToken`, so no store call happens unless the gate admits the
      request, a refused request is 401, and an admitted one runs the
      route's handler once. */
  function ServeRoute(lib: Library, secret: string, deps: ProductDeps, route: Route, req: ProductRequest): (r: Served)
    ensures !Admits(lib, secret, req.authorization) ==> r.calls == [] && r.response.status == StatusUnauthorized
    ensures Admits(lib, secret, req.authorization) ==>
      && |r.calls| >= 1 && r.calls[0].Invoke?
      && r.calls[1..] == Dispatch(deps, route.endpoint, req).calls
      && r.response == Dispatch(deps, route.endpoint, req).response
  {
    RequireToken(lib, secret, req.authorization, (_: Option<Int64>) => Dispatch(deps, route.endpoint, req))
  }

  /** No product route answers a request without an `Authorization` header
      with anything but 401 "missing Authorization header", and none touches
      the store for it. */
  lemma EveryRouteNeedsToken(lib: Library, secret: string, deps: ProductDeps, req: ProductRequest)
    requires req.authorization == ""
    ensures forall i | 0 <= i < |Routes| ::
      ServeRoute(lib, secret, deps, Routes[i], req) == Reply(StatusUnauthorized, "missing Authorization header")
  {
  }

  /** The product store's `CreateProduct` over a statement outcome, in the
      shape the handler calls it. */
  function SqlCreate(exec: Exec): Product -> Result<Product> {
    (p: Product) =>
      var (stored, err) := ProductStore.CreateProduct(p, exec);
      if err.Some? then Err(err.value) else Ok(stored)
  }

  /** With the SQL store, a created product is echoed with the payload's
      fields, the id the database assigned, and an empty creation time (the
      store does not read it back). */
  lemma CreateEchoesPayloadWithNewId(deps: ProductDeps, body: RequestBody, id: Int64)
    requires CreatePayloadOf(deps, body).Ok?
    requires deps.create == SqlCreate(Executed(Ok(id)))
    ensures var p := CreatePayloadOf(deps, body).value;
      HandleCreateProduct(deps, body).response
        == Response(StatusCreated, ProductBody("product created", ProductData(id, p.name, p.description, p.price, p.quantity, "")))
  {
  }

  /** With the SQL store, a missing row is 404, a failing query is 500 with
      its error, and a row is 200 with its columns, the image aside. */
  lemma GetMapsStoreOutcome(deps: ProductDeps, pathId: string, row: SingleRow<ProductStore.ProductRow>)
    requires Atoi(pathId).Some?
    requires deps.get(Atoi(pathId).value) == ProductStore.GetProductByID(row)
    ensures row.NoRows? ==> HandleGetProduct(deps, pathId).response.status == StatusNotFound
    ensures row.RowFailed? ==> HandleGetProduct(deps, pathId).response == ErrorResponse(StatusInternalServerError, row.error)
    ensures row.Row? ==>
      var c := row.row;
      HandleGetProduct(deps, pathId).response
        == Response(StatusOK, ProductBody("success", ProductData(c.id, c.name, c.description, c.price, c.quantity, c.createdAt)))
  {
  }

  /** With the SQL store, listing no rows is 200 with an empty list, and a
      row that fails to scan, after rows that scanned, is 500 with that row's
      error: the products already read are not returned. */
  lemma ListMapsStoreOutcome(deps: ProductDeps, q: Query<ProductStore.ProductRow>)
    requires deps.list == ProductStore.Products(q)
    ensures q.Rows? && |q.rows| == 0 ==> HandleListProducts(deps).response == Response(StatusOK, ProductListBody([]))
    ensures q.QueryFailed? ==>
      HandleListProducts(deps).response == ErrorResponse(StatusInternalServerError, "failed to list products: " + q.error)
    ensures forall k | q.Rows? && 0 <= k < |q.rows| && AllScanned(q.rows[..k]) && q.rows[k].ScanFailed? ::
      HandleListProducts(deps).response
        == ErrorResponse(StatusInternalServerError, "failed to list products: " + q.rows[k].error)
  {
    if q.Rows? && |q.rows| == 0 {
      assert AllScanned(q.rows);
      assert FirstScanError(q.rows) == None;
      var listed := ProductStore.Products(q);
      assert listed.Ok? && |listed.value| == 0;
      assert listed.value == [];
    }
    forall k | q.Rows? && 0 <= k < |q.rows| && AllScanned(q.rows[..k]) && q.rows[k].ScanFailed?
      ensures HandleListProducts(deps).response
        == ErrorResponse(StatusInternalServerError, "failed to list products: " + q.rows[k].error)
    {
      FirstScanErrorIsFirst(q.rows, k);
    }
  }
}

=== FILE: product_store.dfy ===
/** The SQL-backed product store (service/product/store.go). */
module ProductStore {
  import opened Outcomes
  import opened Text
  import opened Types
  import opened Sql

  /** The columns of a `products` row; the image column may be NULL. */
  datatype ProductRow = ProductRow(
    id: Int64,
    name: string,
    description: string,
    image: Option<string>,
    price: Price,
    quantity: Int64,
    createdAt: string)

  /** A scanned row as a product: a NULL image becomes the empty string, a
      present one is copied; every other column is copied. */
  function ProductOf(row: ProductRow): (p: Product)
    ensures row.image.None? ==> p.image == ""
    ensures row.image.Some? ==> p.image == row.image.value
    ensures DataOf(p) == ProductData(row.id, row.name, row.description, row.price, row.quantity, row.createdAt)
  {
    Product(row.id, row.name, row.description, row.image.GetOr(""), row.price, row.quantity, row.createdAt)
  }

  /** What listing returns, without the loop: the query's error, or the error
      of the first row that fails to scan, or one product per row. */
  function Products(q: Query<ProductRow>): Result<seq<Product>> {
    match q
    case QueryFailed(e) => Err(e)
    case Rows(rows) =>
      match FirstScanError(rows)
      case Some(e) => Err(e)
      case None => Ok(seq(|rows|, i requires 0 <= i < |rows| && rows[i].Scanned? => ProductOf(rows[i].row)))
  }

  /** `ListProducts`: a query error, or the first scan error, is returned
      with no products (those already read are dropped); otherwise one
      product per row, in row order, and none for no rows. */
  method ListProducts(q: Query<ProductRow>) returns (r: Result<seq<Product>>)
    ensures q.QueryFailed? ==> r == Err(q.error)
    ensures q.Rows? && FirstScanError(q.rows).Some? ==> r == Err(FirstScanError(q.rows).value)
    ensures q.Rows? && AllScanned(q.rows) ==> r.Ok? && |r.value| == |q.rows|
    ensures q.Rows? && AllScanned(q.rows) ==> forall i | 0 <= i < |q.rows| :: r.value[i] == ProductOf(q.rows[i].row)
    ensures r == Products(q)
  {
    if q.QueryFailed? {
      return Err(q.error);
    }
    var rows := q.rows;
    var products: seq<Product> := [];
    var i := 0;
    while i < |rows|
      invariant 0 <= i <= |rows|
      invariant AllScanned(rows[..i])
      invariant |products| == i
      invariant forall j | 0 <= j < i :: products[j] == ProductOf(rows[j].row)
    {
      match rows[i]
      case ScanFailed(e) =>
        FirstScanErrorIsFirst(rows, i);
        return Err(e);
      case Scanned(row) =>
        products := products + [ProductOf(row)];
      assert rows[..i + 1] == rows[..i] + [rows[i]];
      i := i + 1;
    }
    assert rows[..i] == rows;
    assert products == seq(|rows|, i requires 0 <= i < |rows| && rows[i].Scanned? => ProductOf(rows[i].row));
    return Ok(products);
  }

  /** `GetProductByID`: no row is "no product and no error", distinct from
      every other error, which is returned as is. */
  function GetProductByID(row: SingleRow<ProductRow>): (r: Result<Option<Product>>)
    ensures r == Ok(None) <==> row.NoRows?
    ensures row.RowFailed? ==> r == Err(row.error)
    ensures row.Row? ==> r == Ok(Some(ProductOf(row.row)))
  {
    match row
    case NoRows => Ok(None)
    case RowFailed(e) => Err(e)
    case Row(columns) => Ok(Some(ProductOf(columns)))
  }

  /** `CreateProduct`: on success the product takes the id the database
      assigned and nothing else about it changes; on a statement error or a
      failing `LastInsertId` it is left untouched and the error returned. */
  function CreateProduct(p: Product, exec: Exec): (r: (Product, Option<string>))
    ensures r.1.None? <==> exec.Executed? && exec.lastInsertId.Ok?
    ensures r.1.None? ==> r.0 == p.(id := exec.lastInsertId.value)
    ensures r.1.Some? ==> r.0 == p
    ensures exec.ExecFailed? ==> r.1 == Some(exec.error)
    ensures exec.Executed? && exec.lastInsertId.Err? ==> r.1 == Some(exec.lastInsertId.error)
  {
    match exec
    case ExecFailed(e) => (p, Some(e))
    case Executed(Err(e)) => (p, Some(e))
    case Executed(Ok(id)) => (p.(id := id), None)
  }
}

=== FILE: sql.dfy ===
/** What the stores get back from `database/sql`, with the SQL text and the
    database itself left out: a query either fails or yields rows, each of
    which scans into a struct or fails to; a single-row query yields a row,
    no row, or an error; a statement either fails or reports the id it
    inserted. */
module Sql {
  import opened Outcomes
  import opened Text

  /** Scanning one row into a struct. */
  datatype Scan<+R> = Scanned(row: R) | ScanFailed(error: string)

  /** `db.Query`: an error, or the rows in the order the cursor yields them. */
  datatype Query<+R> = QueryFailed(error: string) | Rows(rows: seq<Scan<R>>)

  /** `db.QueryRow(...).Scan(...)`: `sql.ErrNoRows`, another error, or the row. */
  datatype SingleRow<+R> = NoRows | RowFailed(error: string) | Row(row: R)

  /** `db.Exec`: an error, or a result whose `LastInsertId` may itself fail. */
  datatype Exec = ExecFailed(error: string) | Executed(lastInsertId: Result<Int64>)

  predicate AllScanned<R>(rows: seq<Scan<R>>) {
    forall i | 0 <= i < |rows| :: rows[i].Scanned?
  }

  /** The error of the first row that failed to scan, if any. */
  function FirstScanError<R>(rows: seq<Scan<R>>): (e: Option<string>)
    ensures e.None? <==> AllScanned(rows)
    ensures e.Some? ==> exists k | 0 <= k < |rows| :: AllScanned(rows[..k]) && rows[k] == ScanFailed(e.value)
  {
    if |rows| == 0 then None
    else if rows[0].ScanFailed? then
      assert AllScanned(rows[..0]);
      Some(rows[0].error)
    else
      var rest := FirstScanError(rows[1..]);
      if rest.Some? then
        var k :| 0 <= k < |rows[1..]| && AllScanned(rows[1..][..k]) && rows[1..][k] == ScanFailed(rest.value);
        assert rows[..k + 1] == [rows[0]] + rows[1..][..k];
        rest
      else
        rest
  }

  /** The first failing row determines the error: rows after it are never
      looked at. */
  lemma FirstScanErrorIsFirst<R>(rows: seq<Scan<R>>, k: nat)
    requires k < |rows| && AllScanned(rows[..k]) && rows[k].ScanFailed?
    ensures FirstScanError(rows) == Some(rows[k].error)
  {
    if k > 0 {
      assert rows[0] == rows[..k][0];
      assert rows[1..][..k - 1] == rows[..k][1..];
      FirstScanErrorIsFirst(rows[1..], k - 1);
    }
  }
}

=== FILE: text.dfy ===
/** The string primitives the request logic relies on: Go's `strconv.Itoa`
    and `strconv.Atoi`, `fmt.Sscanf` with the `%d` verb, `strings.ToLower`
    restricted to ASCII, and `strings.SplitN(s, " ", 2)`. */
module Text {
  import opened Outcomes

  /** Go's `int` and `int64` on the 64-bit targets the service is built for. */
  type Int64 = x: int | IsInt64(x)

  predicate IsInt64(x: int) {
    -0x8000_0000_0000_0000 <= x <= 0x7fff_ffff_ffff_ffff
  }

  predicate IsDigit(c: char) {
    '0' <= c <= '9'
  }

  predicate AllDigits(s: string) {
    forall i | 0 <= i < |s| :: IsDigit(s[i])
  }

  function DigitChar(d: nat): (c: char)
    requires d < 10
    ensures IsDigit(c)
  {
    ('0' as int + d) as char
  }

  function DigitValue(c: char): (d: nat)
    requires IsDigit(c)
    ensures d < 10 && DigitChar(d) == c
  {
    c as int - '0' as int
  }

  /** The number a string of decimal digits denotes, most significant first. */
  function DigitsValue(s: string): nat
    requires AllDigits(s)
  {
    if |s| == 0 then 0 else DigitsValue(s[..|s| - 1]) * 10 + DigitValue(s[|s| - 1])
  }

  /** The shortest decimal spelling of `n`: digits only, no leading zero. */
  function NatDigits(n: nat): (s: string)
    ensures 1 <= |s| && AllDigits(s)
    ensures n > 0 ==> s[0] != '0'
    ensures |s| > 1 ==> s[0] != '0'
  {
    if n < 10 then [DigitChar(n)] else NatDigits(n / 10) + [DigitChar(n % 10)]
  }

  lemma {:induction false} NatDigitsValue(n: nat)
    ensures DigitsValue(NatDigits(n)) == n
  {
    var s := NatDigits(n);
    if n < 10 {
      assert s[..|s| - 1] == [];
    } else {
      assert s[..|s| - 1] == NatDigits(n / 10);
      NatDigitsValue(n / 10);
    }
  }

  /** `strconv.Itoa`: the decimal spelling, with a '-' in front of a negative
      number and no sign otherwise. */
  function Itoa(n: int): (s: string)
    ensures 1 <= |s|
    ensures s[0] == '-' <==> n < 0
    ensures n >= 0 ==> AllDigits(s)
    ensures n < 0 ==> AllDigits(s[1..])
    ensures n >= 0 && |s| > 1 ==> s[0] != '0'
    ensures n < 0 ==> |s| > 1 && s[1] != '0'
  {
    if n < 0 then "-" + NatDigits(-n) else NatDigits(n)
  }

  /** Splits at most one leading '+' or '-' off `s`. */
  function SplitSign(s: string): (r: (bool, string))
    ensures r.1 == s || (|s| > 0 && r.1 == s[1..] && (s[0] == '+' || s[0] == '-'))
    ensures r.0 <==> (|s| > 0 && s[0] == '-')
  {
    if |s| > 0 && s[0] == '-' then (true, s[1..])
    else if |s| > 0 && s[0] == '+' then (false, s[1..])
    else (false, s)
  }

  /** The signed value of a sign and a digit string. */
  function Signed(negative: bool, digits: string): int
    requires AllDigits(digits)
  {
    if negative then 0 - DigitsValue(digits) else DigitsValue(digits)
  }

  /** `strconv.Atoi` on a 64-bit target: an optional sign followed by at least
      one decimal digit and nothing else, whose value fits the type. No base
      prefix, no underscore, no surrounding space. */
  function Atoi(s: string): (r: Option<Int64>)
    ensures r.Some? ==> 0 < |s| && IsDigit(s[|s| - 1])
    ensures r.Some? ==> forall i | 0 <= i < |s| :: IsDigit(s[i]) || (i == 0 && (s[i] == '+' || s[i] == '-'))
    ensures r.Some? ==> (r.value < 0 ==> s[0] == '-')
  {
    var (negative, digits) := SplitSign(s);
    if |digits| == 0 || !AllDigits(digits) then None
    else
      var v := Signed(negative, digits);
      if IsInt64(v) then Some(v) else None
  }

  /** Issuing a number with `Itoa` and reading it back with `Atoi` gives the
      number back, for every value of Go's `int`. */
  lemma {:induction false} AtoiItoa(n: Int64)
    ensures Atoi(Itoa(n)) == Some(n)
  {
    var s := Itoa(n);
    if n < 0 {
      var m: nat := 0 - n as int;
      var d := NatDigits(m);
      assert s == "-" + d;
      assert s[1..] == d;
      assert SplitSign(s) == (true, d);
      NatDigitsValue(m);
      assert Signed(true, d) == n;
    } else {
      var d := NatDigits(n);
      assert s == d;
      assert SplitSign(s) == (false, d);
      NatDigitsValue(n);
      assert Signed(false, d) == n;
    }
  }

  /** Conversely, every optional sign followed by a non-empty run of decimal
      digits whose value fits is accepted, with that value: leading zeros,
      a '+' and "-0" included. */
  lemma {:induction false} AtoiSignedDigits(sign: string, d: string)
    requires sign == "" || sign == "+" || sign == "-"
    requires |d| > 0 && AllDigits(d)
    requires IsInt64(Signed(sign == "-", d))
    ensures Atoi(sign + d) == Some(Signed(sign == "-", d))
  {
    var s := sign + d;
    if sign == "" {
      assert s == d;
    } else {
      assert s[0] == sign[0];
      assert s[1..] == d;
    }
    assert SplitSign(s) == (sign == "-", d);
  }

  /** A well-formed number outside Go's 64-bit `int` is refused (Go reports
      `ErrRange`), however many digits it has. */
  lemma {:induction false} AtoiRefusesOutOfRange(sign: string, d: string)
    requires sign == "" || sign == "+" || sign == "-"
    requires |d| > 0 && AllDigits(d)
    requires !IsInt64(Signed(sign == "-", d))
    ensures Atoi(sign + d).None?
  {
    var s := sign + d;
    if sign == "" {
      assert s == d;
    } else {
      assert s[0] == sign[0];
      assert s[1..] == d;
    }
    assert SplitSign(s) == (sign == "-", d);
  }

  /** The characters Go's fmt scanner skips before a `%d` operand: the white
      space of its table except the newline, which ends the scan instead. */
  predicate IsScanBlank(c: char) {
    var k := c as int;
    (0x09 <= k <= 0x0d && k != 0x0a) || k == 0x20 || k == 0x85 || k == 0xa0 || k == 0x1680
    || (0x2000 <= k <= 0x200a) || k == 0x2028 || k == 0x2029 || k == 0x202f || k == 0x205f
    || k == 0x3000
  }

  function DropBlanks(s: string): (t: string)
    ensures |t| <= |s| && t == s[|s| - |t|..]
    ensures t == [] || !IsScanBlank(t[0])
    ensures forall i | 0 <= i < |s| - |t| :: IsScanBlank(s[i])
  {
    if |s| > 0 && IsScanBlank(s[0]) then DropBlanks(s[1..]) else s
  }

  /** The longest prefix of `s` made of decimal digits. */
  function DigitPrefix(s: string): (d: string)
    ensures d <= s && AllDigits(d)
    ensures |d| < |s| ==> !IsDigit(s[|d|])
  {
    if |s| > 0 && IsDigit(s[0]) then [s[0]] + DigitPrefix(s[1..]) else []
  }

  /** An optional sign and the longest run of digits after it, read as a
      64-bit integer. */
  function ReadInteger(t: string): (r: Option<Int64>)
    ensures (forall i | 0 <= i < |t| :: !IsDigit(t[i])) ==> r.None?
  {
    var (negative, rest) := SplitSign(t);
    var digits := DigitPrefix(rest);
    if |digits| == 0 then None
    else
      var v := Signed(negative, digits);
      if IsInt64(v) then Some(v) else None
  }

  /** `fmt.Sscanf(s, "%d", &v)` with `v` a 64-bit `int`: blanks are skipped,
      then an optional sign and the longest run of digits are read; the text
      after the digits is not looked at. */
  function ScanDecimal(s: string): (r: Option<Int64>)
    ensures (forall i | 0 <= i < |s| :: !IsDigit(s[i])) ==> r.None?
    ensures r.Some? ==>
      var t := DropBlanks(s);
      |t| > 0 && (IsDigit(t[0]) || ((t[0] == '+' || t[0] == '-') && |t| > 1 && IsDigit(t[1])))
  {
    ReadInteger(DropBlanks(s))
  }

  lemma {:induction false} DropBlanksStops(pad: string, t: string)
    requires forall i | 0 <= i < |pad| :: IsScanBlank(pad[i])
    requires t == [] || !IsScanBlank(t[0])
    ensures DropBlanks(pad + t) == t
  {
    if |pad| > 0 {
      assert (pad + t)[1..] == pad[1..] + t;
      DropBlanksStops(pad[1..], t);
    }
  }

  lemma {:induction false} DigitPrefixStops(d: string, tail: string)
    requires AllDigits(d)
    requires tail == [] || !IsDigit(tail[0])
    ensures DigitPrefix(d + tail) == d
  {
    if |d| == 0 {
      assert d + tail == tail;
    } else {
      var s := d + tail;
      assert s[0] == d[0];
      assert s[1..] == d[1..] + tail;
      DigitPrefixStops(d[1..], tail);
      assert d == [d[0]] + d[1..];
    }
  }

  /** Blanks in front of the text do not change what `Sscanf` reads. */
  lemma {:induction false} ScanDecimalSkipsBlanks(pad: string, t: string)
    requires forall i | 0 <= i < |pad| :: IsScanBlank(pad[i])
    requires t == [] || !IsScanBlank(t[0])
    ensures ScanDecimal(pad + t) == ScanDecimal(t)
  {
    DropBlanksStops(pad, t);
    DropBlanksStops([], t);
    assert [] + t == t;
  }

  /** Whatever blanks precede the number and whatever non-digit text follows
      it, `Sscanf` with `%d` reads back exactly what `Itoa` wrote. */
  lemma {:induction false} ScanDecimalItoa(pad: string, n: Int64, tail: string)
    requires forall i | 0 <= i < |pad| :: IsScanBlank(pad[i])
    requires tail == [] || !IsDigit(tail[0])
    ensures ScanDecimal(pad + Itoa(n) + tail) == Some(n)
  {
    var s := Itoa(n);
    assert pad + s + tail == pad + (s + tail);
    ScanDecimalSkipsBlanks(pad, s + tail);
    ScanItoaTail(n, tail);
  }

  lemma {:induction false} ScanItoaTail(n: Int64, tail: string)
    requires tail == [] || !IsDigit(tail[0])
    ensures ScanDecimal(Itoa(n) + tail) == Some(n)
  {
    var s := Itoa(n) + tail;
    DropBlanksStops([], s);
    assert [] + s == s;
    ReadItoaTail(n, tail);
  }

  lemma {:induction false} ReadItoaTail(n: Int64, tail: string)
    requires tail == [] || !IsDigit(tail[0])
    ensures ReadInteger(Itoa(n) + tail) == Some(n)
  {
    var m: nat := if n < 0 then 0 - n as int else n;
    var d := NatDigits(m);
    var sign := if n < 0 then "-" else "";
    assert Itoa(n) == sign + d;
    NatDigitsValue(m);
    ReadSignedDigits(sign, d, tail);
  }

  lemma {:induction false} ReadSignedDigits(sign: string, d: string, tail: string)
    requires sign == "" || sign == "+" || sign == "-"
    requires |d| > 0 && AllDigits(d)
    requires tail == [] || !IsDigit(tail[0])
    requires IsInt64(Signed(sign == "-", d))
    ensures ReadInteger(sign + d + tail) == Some(Signed(sign == "-", d))
  {
    var s := sign + d + tail;
    var rest := d + tail;
    assert SplitSign(s) == (sign == "-", rest) by {
      if sign == "" {
        assert s == rest;
        assert s[0] == d[0];
      } else {
        assert s == sign + rest;
        assert s[0] == sign[0] && s[1..] == rest;
      }
    }
    DigitPrefixStops(d, tail);
    assert DigitPrefix(rest) == d;
  }

  /** `Sscanf` with `%d` reads any in-range number written in decimal, with
      a '+' or '-' or no sign and with leading zeros, at its value, whatever
      blanks precede it and whatever non-digit text follows it ("+3600s",
      "  03600 s"). */
  lemma {:induction false} ScanDecimalSignedDigits(pad: string, sign: string, d: string, tail: string)
    requires forall i | 0 <= i < |pad| :: IsScanBlank(pad[i])
    requires sign == "" || sign == "+" || sign == "-"
    requires |d| > 0 && AllDigits(d)
    requires tail == [] || !IsDigit(tail[0])
    requires IsInt64(Signed(sign == "-", d))
    ensures ScanDecimal(pad + sign + d + tail) == Some(Signed(sign == "-", d))
  {
    var t := sign + d + tail;
    assert pad + sign + d + tail == pad + t;
    assert t[0] == (if sign == "" then d[0] else sign[0]);
    DropBlanksStops(pad, t);
    ReadSignedDigits(sign, d, tail);
  }

  /** A number outside Go's 64-bit `int` is refused by `Sscanf` too (it
      reports a range error), whatever blanks precede it and whatever
      non-digit text follows it. */
  lemma {:induction false} ScanDecimalRefusesOutOfRange(pad: string, sign: string, d: string, tail: string)
    requires forall i | 0 <= i < |pad| :: IsScanBlank(pad[i])
    requires sign == "" || sign == "+" || sign == "-"
    requires |d| > 0 && AllDigits(d)
    requires tail == [] || !IsDigit(tail[0])
    requires !IsInt64(Signed(sign == "-", d))
    ensures ScanDecimal(pad + sign + d + tail).None?
  {
    var t := sign + d + tail;
    assert pad + sign + d + tail == pad + t;
    assert t[0] == (if sign == "" then d[0] else sign[0]);
    DropBlanksStops(pad, t);
    ReadOutOfRange(sign, d, tail);
  }

  lemma {:induction false} ReadOutOfRange(sign: string, d: string, tail: string)
    requires sign == "" || sign == "+" || sign == "-"
    requires |d| > 0 && AllDigits(d)
    requires tail == [] || !IsDigit(tail[0])
    requires !IsInt64(Signed(sign == "-", d))
    ensures ReadInteger(sign + d + tail).None?
  {
    var s := sign + d + tail;
    var rest := d + tail;
    assert SplitSign(s) == (sign == "-", rest) by {
      if sign == "" {
        assert s == rest;
        assert s[0] == d[0];
      } else {
        assert s == sign + rest;
        assert s[0] == sign[0] && s[1..] == rest;
      }
    }
    DigitPrefixStops(d, tail);
    assert DigitPrefix(rest) == d;
  }

  /** Every string `Atoi` accepts is read the same way by `Sscanf` with `%d`. */
  lemma {:induction false} ScanDecimalAcceptsAtoi(s: string)
    requires Atoi(s).Some?
    ensures ScanDecimal(s) == Atoi(s)
  {
    DropBlanksStops([], s);
    assert [] + s == s;
    var (negative, digits) := SplitSign(s);
    DigitPrefixStops(digits, []);
    assert digits + [] == digits;
    assert ReadInteger(s) == Atoi(s);
  }

  function LowerAscii(c: char): char {
    if 'A' <= c <= 'Z' then (c as int + 32) as char else c
  }

  /** `strings.ToLower`, for the ASCII letters. */
  function ToLowerAscii(s: string): (t: string)
    ensures |t| == |s|
    ensures forall i | 0 <= i < |s| :: t[i] == LowerAscii(s[i])
  {
    if |s| == 0 then [] else [LowerAscii(s[0])] + ToLowerAscii(s[1..])
  }

  /** `a` spells the lower-case word `word` with any mix of cases. */
  predicate MatchesIgnoringCase(a: string, word: string) {
    |a| == |word|
    && forall i | 0 <= i < |a| :: a[i] == word[i] || ('a' <= word[i] <= 'z' && a[i] as int == word[i] as int - 32)
  }

  /** Lower-casing yields a lower-case word exactly when the string spells that
      word in some mix of cases. */
  lemma ToLowerMatches(a: string, word: string)
    requires forall i | 0 <= i < |word| :: !('A' <= word[i] <= 'Z')
    ensures ToLowerAscii(a) == word <==> MatchesIgnoringCase(a, word)
  {
    var t := ToLowerAscii(a);
    if MatchesIgnoringCase(a, word) {
      forall i | 0 <= i < |a|
        ensures t[i] == word[i]
      {
      }
    }
  }

  /** The position of the first `c` in `s`. */
  function IndexOf(s: string, c: char): (r: Option<nat>)
    ensures r.None? <==> c !in s
    ensures r.Some? ==> r.value < |s| && s[r.value] == c && c !in s[..r.value]
  {
    if |s| == 0 then None
    else if s[0] == c then Some(0)
    else match IndexOf(s[1..], c)
      case None => None
      case Some(i) => assert s[..i + 1] == [s[0]] + s[1..][..i]; Some(i + 1)
  }

  /** `strings.SplitN(s, " ", 2)`: the text before the first space and the
      text after it, or `s` alone when it has no space. */
  function SplitFirstSpace(s: string): (parts: seq<string>)
    ensures 1 <= |parts| <= 2
    ensures |parts| == 1 <==> ' ' !in s
    ensures |parts| == 1 ==> parts[0] == s
    ensures |parts| == 2 ==> s == parts[0] + " " + parts[1] && ' ' !in parts[0]
  {
    match IndexOf(s, ' ')
    case None => [s]
    case Some(i) => assert s == s[..i] + " " + s[i + 1..]; [s[..i], s[i + 1..]]
  }

  /** The split is unique: whatever follows the first space, spaces included,
      is the second part. */
  lemma SplitAtFirstSpace(head: string, rest: string)
    requires ' ' !in head
    ensures SplitFirstSpace(head + " " + rest) == [head, rest]
  {
    var s := head + " " + rest;
    assert s[|head|] == ' ';
    var i := IndexOf(s, ' ').value;
    assert i == |head|;
    assert s[..i] == head;
    assert s[i + 1..] == rest;
  }
}

=== FILE: types.dfy ===
/** The entities, payloads and responses the handlers exchange (types/types.go,
    types/payloads.go, types/responses.go and the product types the product
    handlers use), plus the trace of collaborator calls a handler makes. */
module Types {
  import opened Outcomes
  import opened Text

  /** A user row. `password` holds the bcrypt hash, never the plaintext. */
  datatype User = User(
    id: Int64,
    firstName: string,
    lastName: string,
    email: string,
    password: string,
    createdAt: string)

  /** What the JSON encoding of a `User` carries: the password field is
      tagged `json:"-"` and never leaves the server. */
  datatype UserView = UserView(
    id: Int64,
    firstName: string,
    lastName: string,
    email: string,
    createdAt: string)

  function ViewOf(u: User): (v: UserView)
    ensures v.id == u.id && v.email == u.email && v.createdAt == u.createdAt
    ensures v.firstName == u.firstName && v.lastName == u.lastName
  {
    UserView(u.id, u.firstName, u.lastName, u.email, u.createdAt)
  }

  /** A `float64` price, carried as its IEEE 754 bit pattern: the handlers
      copy prices and never compute with them. */
  datatype Price = Price(bits: bv64)

  datatype Product = Product(
    id: Int64,
    name: string,
    description: string,
    image: string,
    price: Price,
    quantity: Int64,
    createdAt: string)

  /** The `data` object of a single-product response; it has no image. */
  datatype ProductData = ProductData(
    id: Int64,
    name: string,
    description: string,
    price: Price,
    quantity: Int64,
    createdAt: string)

  function DataOf(p: Product): (d: ProductData)
    ensures d.id == p.id && d.name == p.name && d.description == p.description
    ensures d.price == p.price && d.quantity == p.quantity && d.createdAt == p.createdAt
  {
    ProductData(p.id, p.name, p.description, p.price, p.quantity, p.createdAt)
  }

  /** The zero value of the `data` struct. */
  const ZeroData: ProductData := ProductData(0, "", "", Price(0), 0, "")

  datatype LoginPayload = LoginPayload(email: string, password: string)

  datatype RegisterPayload = RegisterPayload(
    firstName: string,
    lastName: string,
    email: string,
    password: string)

  datatype CreateProductPayload = CreateProductPayload(
    name: string,
    description: string,
    price: Price,
    quantity: Int64)

  datatype UpdateProductPayload = UpdateProductPayload(
    id: Int64,
    name: string,
    description: string,
    price: Price,
    quantity: Int64)

  /** A request body: Go's nil body, or the text to be decoded as JSON. */
  datatype RequestBody = NoBody | RawBody(text: string)

  /** The JSON object written back. */
  datatype Body =
    | ErrorBody(error: string)
    | TokenBody(token: string)
    | UserBody(user: UserView)
    | ProductBody(message: string, data: ProductData)
    | ProductListBody(products: seq<Product>)

  datatype Response = Response(status: int, body: Body)

  const StatusOK := 200
  const StatusCreated := 201
  const StatusBadRequest := 400
  const StatusUnauthorized := 401
  const StatusNotFound := 404
  const StatusInternalServerError := 500

  /** `utils.WriteError`: the status with `{"error": message}`. */
  function ErrorResponse(status: int, message: string): Response {
    Response(status, ErrorBody(message))
  }

  /** A call from a handler to one of its collaborators. */
  datatype Call =
    | Invoke(subject: Option<Int64>)
    | LookupUserByEmail(email: string)
    | ComparePassword(hash: string)
    | IssueToken(userId: Int64)
    | HashPassword
    | CreateUser(user: User)
    | ListProducts
    | GetProduct(id: Int64)
    | CreateProduct(product: Product)
    | UpdateProduct(product: Product)
    | DeleteProduct(id: Int64)

  /** What serving one request produced: the response written and the calls
      made, in order. */
  datatype Served = Served(response: Response, calls: seq<Call>)

  /** A response written before any collaborator was called. */
  function Reply(status: int, message: string): (s: Served)
    ensures s.calls == [] && s.response.status == status
  {
    Served(ErrorResponse(status, message), [])
  }
}

=== FILE: user_routes.dfy ===
/** The login and registration handlers (service/user/route.go): ordered
    checks, each failure mapped to a status and message. */
module UserRoutes {
  import opened Outcomes
  import opened Text
  import opened Types
  import opened Payloads
  import opened Jwt
  import opened Configuration
  import opened Sql
  import UserStore

  /** The handlers' collaborators. JSON decoding, the email-syntax check,
      bcrypt, the store and the JWT library are oracles; `now` is the clock
      reading (Unix seconds) when the request is served. */
  datatype UserDeps = UserDeps(
    decodeLogin: string -> Result<LoginPayload>,
    decodeRegister: string -> Result<RegisterPayload>,
    isEmail: string -> bool,
    lookupByEmail: string -> Result<User>,
    comparePassword: (string, string) -> bool,
    hashPassword: string -> Result<string>,
    createUser: User -> Option<string>,
    jwt: Library,
    now: int)

  const InvalidCredentials: string := "invalid email or password"

  /** The login payload, or the message of the 400 that ends the request. */
  function LoginPayloadOf(deps: UserDeps, body: RequestBody): Result<LoginPayload> {
    ReadPayload(body, deps.decodeLogin, (p: LoginPayload) => ValidateLogin(p, deps.isEmail))
  }

  /** The store knows the email and the password matches its stored hash. */
  predicate CredentialsAccepted(deps: UserDeps, p: LoginPayload) {
    deps.lookupByEmail(p.email).Ok?
    && deps.comparePassword(deps.lookupByEmail(p.email).value.password, p.password)
  }

  /** `handleLogin`. Unreadable or invalid input is 400 before the store is
      consulted; an unknown email and a wrong password get the one same 401;
      an empty signing secret is 500, checked only once the credentials are
      accepted; otherwise the token issued for the user's ID is returned. */
  function HandleLogin(deps: UserDeps, cfg: Config, body: RequestBody): (r: Served)
    ensures r.response.status in {StatusOK, StatusBadRequest, StatusUnauthorized, StatusInternalServerError}
    ensures r.response.status == StatusBadRequest <==> LoginPayloadOf(deps, body).Err?
    ensures r.response.status == StatusBadRequest ==> r.calls == []
    ensures LoginPayloadOf(deps, body).Err? ==> r == Reply(StatusBadRequest, LoginPayloadOf(deps, body).error)
    ensures LoginPayloadOf(deps, body).Ok? && !CredentialsAccepted(deps, LoginPayloadOf(deps, body).value) ==>
      r.response == ErrorResponse(StatusUnauthorized, InvalidCredentials)
    ensures r.response.status == StatusUnauthorized ==> r.response == ErrorResponse(StatusUnauthorized, InvalidCredentials)
    ensures LoginPayloadOf(deps, body).Ok? && CredentialsAccepted(deps, LoginPayloadOf(deps, body).value) && cfg.jwtSecret == "" ==>
      r.response == ErrorResponse(StatusInternalServerError, "JWT secret not configured")
    ensures r.response.status == StatusOK <==>
      && LoginPayloadOf(deps, body).Ok?
      && CredentialsAccepted(deps, LoginPayloadOf(deps, body).value)
      && cfg.jwtSecret != ""
      && CreateJWT(deps.jwt, cfg.jwtSecret, deps.lookupByEmail(LoginPayloadOf(deps, body).value.email).value.id,
                   deps.now, cfg.jwtExpirationSeconds).Ok?
    ensures LoginPayloadOf(deps, body).Ok? ==>
      |r.calls| > 0 && r.calls[0] == LookupUserByEmail(LoginPayloadOf(deps, body).value.email)
    ensures LoginPayloadOf(deps, body).Ok? && CredentialsAccepted(deps, LoginPayloadOf(deps, body).value) && cfg.jwtSecret != "" ==>
      var u := deps.lookupByEmail(LoginPayloadOf(deps, body).value.email).value;
      var signed := CreateJWT(deps.jwt, cfg.jwtSecret, u.id, deps.now, cfg.jwtExpirationSeconds);
      signed.Err? ==> r.response == ErrorResponse(StatusInternalServerError, "failed to generate token: " + signed.error)
    ensures r.response.status == StatusOK ==>
      var u := deps.lookupByEmail(LoginPayloadOf(deps, body).value.email).value;
      r.response.body == TokenBody(CreateJWT(deps.jwt, cfg.jwtSecret, u.id, deps.now, cfg.jwtExpirationSeconds).value)
      && IssueToken(u.id) in r.calls
  {
    match LoginPayloadOf(deps, body)
    case Err(e) => Reply(StatusBadRequest, e)
    case Ok(p) =>
      var looked := [LookupUserByEmail(p.email)];
      match deps.lookupByEmail(p.email)
      case Err(_) => Served(ErrorResponse(StatusUnauthorized, InvalidCredentials), looked)
      case Ok(u) =>
        var compared := looked + [ComparePassword(u.password)];
        if !deps.comparePassword(u.password, p.password) then
          Served(ErrorResponse(StatusUnauthorized, InvalidCredentials), compared)
        else if cfg.jwtSecret == "" then
          Served(ErrorResponse(StatusInternalServerError, "JWT secret not configured"), compared)
        else
          var issued := compared + [IssueToken(u.id)];
          match CreateJWT(deps.jwt, cfg.jwtSecret, u.id, deps.now, cfg.jwtExpirationSeconds)
          case Err(e) => Served(ErrorResponse(StatusInternalServerError, "failed to generate token: " + e), issued)
          case Ok(token) => Served(Response(StatusOK, TokenBody(token)), issued)
  }

  /** Non-disclosure: a login for an email the store does not know, whatever
      error it reports, and a login with a known email but the wrong password
      get byte-for-byte the same response. */
  lemma UnknownEmailLooksLikeWrongPassword(
    unknown: UserDeps, known: UserDeps, cfg1: Config, cfg2: Config, body: RequestBody)
    requires LoginPayloadOf(unknown, body).Ok? && LoginPayloadOf(known, body).Ok?
    requires unknown.lookupByEmail(LoginPayloadOf(unknown, body).value.email).Err?
    requires var p := LoginPayloadOf(known, body).value;
      known.lookupByEmail(p.email).Ok? && !known.comparePassword(known.lookupByEmail(p.email).value.password, p.password)
    ensures HandleLogin(unknown, cfg1, body).response == HandleLogin(known, cfg2, body).response
    ensures HandleLogin(unknown, cfg1, body).response == ErrorResponse(StatusUnauthorized, InvalidCredentials)
  {
  }

  /** The "JWT secret not configured" response can only come from a
      `JWT_SECRET` variable set explicitly to the empty string. */
  lemma EmptySecretNeedsExplicitSetting(deps: UserDeps, env: Env, body: RequestBody)
    ensures var r := HandleLogin(deps, InitConfig(env), body).response;
      r == ErrorResponse(StatusInternalServerError, "JWT secret not configured") ==> "JWT_SECRET" in env && env["JWT_SECRET"] == ""
  {
  }

  /** The token a successful login returns, sent back as `Bearer <token>`
      while the library still accepts it, reaches a protected handler with
      the logged-in user's ID. */
  lemma LoginTokenOpensGate(
    deps: UserDeps, cfg: Config, body: RequestBody, next: Option<Int64> -> Served)
    requires HandleLogin(deps, cfg, body).response.status == StatusOK
    requires var u := deps.lookupByEmail(LoginPayloadOf(deps, body).value.email).value;
      var token := HandleLogin(deps, cfg, body).response.body.token;
      deps.jwt.decode(token) == Ok(HS256)
      && deps.jwt.verify(token, cfg.jwtSecret) == Ok(IssueClaims(u.id, deps.now, cfg.jwtExpirationSeconds))
    ensures var u := deps.lookupByEmail(LoginPayloadOf(deps, body).value.email).value;
      var token := HandleLogin(deps, cfg, body).response.body.token;
      RequireToken(deps.jwt, cfg.jwtSecret, "Bearer " + token, next)
        == Served(next(Some(u.id)).response, [Invoke(Some(u.id))] + next(Some(u.id)).calls)
  {
    var r := HandleLogin(deps, cfg, body);
    var u := deps.lookupByEmail(LoginPayloadOf(deps, body).value.email).value;
    var signed := CreateJWT(deps.jwt, cfg.jwtSecret, u.id, deps.now, cfg.jwtExpirationSeconds);
    assert signed.Ok? && r.response.body == TokenBody(signed.value);
    BearerHeaderAuthorizes(deps.jwt, cfg.jwtSecret, u.id, deps.now, cfg.jwtExpirationSeconds, next);
  }

  /** The registration payload, or the message of the 400 that ends the
      request. */
  function RegisterPayloadOf(deps: UserDeps, body: RequestBody): Result<RegisterPayload> {
    ReadPayload(body, deps.decodeRegister, (p: RegisterPayload) => ValidateRegister(p, deps.isEmail))
  }

  /** The user `handleRegister` builds: the payload's names and email, the
      hash in place of the password, and no ID or creation time. */
  function NewUser(p: RegisterPayload, hash: string): (u: User)
    ensures u.password == hash
    ensures ViewOf(u) == UserView(0, p.firstName, p.lastName, p.email, "")
  {
    User(0, p.firstName, p.lastName, p.email, hash, "")
  }

  /** Registration goes past the duplicate check: the payload is readable and
      valid and the lookup failed, whatever its error. */
  predicate ReachesHashing(deps: UserDeps, body: RequestBody) {
    RegisterPayloadOf(deps, body).Ok? && deps.lookupByEmail(RegisterPayloadOf(deps, body).value.email).Err?
  }

  /** `handleRegister`. Any successful lookup counts as a duplicate and ends
      the request with 400 before anything is written; the user is persisted
      only with the hash of the password, never the plaintext; the 201 body
      carries no password. */
  function HandleRegister(deps: UserDeps, body: RequestBody): (r: Served)
    ensures r.response.status in {StatusCreated, StatusBadRequest, StatusInternalServerError}
    ensures RegisterPayloadOf(deps, body).Err? ==> r == Reply(StatusBadRequest, RegisterPayloadOf(deps, body).error)
    ensures RegisterPayloadOf(deps, body).Ok? && deps.lookupByEmail(RegisterPayloadOf(deps, body).value.email).Ok? ==>
      var email := RegisterPayloadOf(deps, body).value.email;
      r == Served(ErrorResponse(StatusBadRequest, "user with email " + email + " already exists"), [LookupUserByEmail(email)])
    ensures (exists i | 0 <= i < |r.calls| :: r.calls[i].CreateUser?) <==>
      ReachesHashing(deps, body) && deps.hashPassword(RegisterPayloadOf(deps, body).value.password).Ok?
    ensures forall i | 0 <= i < |r.calls| && r.calls[i].CreateUser? ::
      var p := RegisterPayloadOf(deps, body).value;
      r.calls[i].user == NewUser(p, deps.hashPassword(p.password).value)
    ensures r.response.status == StatusCreated <==>
      && ReachesHashing(deps, body)
      && deps.hashPassword(RegisterPayloadOf(deps, body).value.password).Ok?
      && var p := RegisterPayloadOf(deps, body).value;
         deps.createUser(NewUser(p, deps.hashPassword(p.password).value)).None?
    ensures r.response.status == StatusCreated ==>
      var p := RegisterPayloadOf(deps, body).value;
      r.response.body == UserBody(UserView(0, p.firstName, p.lastName, p.email, ""))
    ensures ReachesHashing(deps, body) ==>
      var p := RegisterPayloadOf(deps, body).value;
      deps.hashPassword(p.password).Err? ==>
        r.response == ErrorResponse(StatusInternalServerError, "failed to hash password: " + deps.hashPassword(p.password).error)
    ensures ReachesHashing(deps, body) ==>
      var p := RegisterPayloadOf(deps, body).value;
      deps.hashPassword(p.password).Ok? && deps.createUser(NewUser(p, deps.hashPassword(p.password).value)).Some? ==>
        r.response == ErrorResponse(StatusInternalServerError, deps.createUser(NewUser(p, deps.hashPassword(p.password).value)).value)
  {
    match RegisterPayloadOf(deps, body)
    case Err(e) => Reply(StatusBadRequest, e)
    case Ok(p) =>
      var looked := [LookupUserByEmail(p.email)];
      if deps.lookupByEmail(p.email).Ok? then
        Served(ErrorResponse(StatusBadRequest, "user with email " + p.email + " already exists"), looked)
      else
        var hashed := looked + [HashPassword];
        match deps.hashPassword(p.password)
        case Err(e) => Served(ErrorResponse(StatusInternalServerError, "failed to hash password: " + e), hashed)
        case Ok(hash) =>
          var user := NewUser(p, hash);
          var created := hashed + [CreateUser(user)];
          assert created[2].CreateUser?;
          match deps.createUser(user)
          case Some(e) => Served(ErrorResponse(StatusInternalServerError, e), created)
          case None => Served(Response(StatusCreated, UserBody(ViewOf(user))), created)
  }

  /** With the SQL store behind the lookup, only a query whose rows all scan
      and whose last row has a nonzero ID counts as a duplicate: a failing
      query or a failing scan lets registration through to hashing just as
      "user not found" does. */
  lemma DuplicateOnlyForStoredRow(deps: UserDeps, body: RequestBody, q: Query<User>)
    requires RegisterPayloadOf(deps, body).Ok?
    requires deps.lookupByEmail(RegisterPayloadOf(deps, body).value.email) == UserStore.Lookup(q)
    ensures ReachesHashing(deps, body) <==>
      !(q.Rows? && AllScanned(q.rows) && |q.rows| > 0 && q.rows[|q.rows| - 1].row.id != 0)
  {
  }

  /** The registration test: with a store that reports every email as not
      found, a complete payload with a well-formed email is created (201),
      and the same payload with the email "123" is refused (400). */
  lemma RegistrationTestCases(deps: UserDeps, valid: string, invalid: string)
    requires forall email :: deps.lookupByEmail(email).Err?
    requires forall u :: deps.createUser(u) == None
    requires deps.hashPassword("password123").Ok?
    requires deps.isEmail("valid@gmail.com") && !deps.isEmail("123")
    requires deps.decodeRegister(valid) == Ok(RegisterPayload("John", "Doe", "valid@gmail.com", "password123"))
    requires deps.decodeRegister(invalid) == Ok(RegisterPayload("John", "Doe", "123", "password123"))
    ensures HandleRegister(deps, RawBody(valid)).response.status == StatusCreated
    ensures HandleRegister(deps, RawBody(invalid)).response.status == StatusBadRequest
  {
    assert |"password123"| >= 6;
    var p := RegisterPayload("John", "Doe", "valid@gmail.com", "password123");
    assert deps.createUser(NewUser(p, deps.hashPassword(p.password).value)) == None;
  }
}

=== FILE: user_store.dfy ===
/** The SQL-backed user store (service/user/store.go). Both lookups walk the
    rows of their query, scanning each into a fresh user that replaces the
    previous one, and treat a final user with ID 0 as absent. */
module UserStore {
  import opened Outcomes
  import opened Text
  import opened Types
  import opened Sql

  const NotFound: string := "user not found"

  /** `new(types.User)`: the zero user the fold starts from. */
  const ZeroUser: User := User(0, "", "", "", "", "")

  /** What a lookup returns, without the loop: a query error is returned
      unchanged; the first row that fails to scan aborts with its error;
      otherwise the last row wins, and zero rows, or a last row with ID 0, is
      "user not found". */
  function Lookup(q: Query<User>): Result<User> {
    match q
    case QueryFailed(e) => Err(e)
    case Rows(rows) =>
      match FirstScanError(rows)
      case Some(e) => Err(e)
      case None =>
        if |rows| == 0 || rows[|rows| - 1].row.id == 0 then Err(NotFound) else Ok(rows[|rows| - 1].row)
  }

  /** The fold shared by `GetUserByEmail` and `GetUserByID`: a query error
      is returned unchanged; the first row that fails to scan aborts with its
      error; otherwise the last row wins, and zero rows, or a last row with
      ID 0, is "user not found". */
  method LookupFold(q: Query<User>) returns (r: Result<User>)
    ensures q.QueryFailed? ==> r == Err(q.error)
    ensures q.Rows? && FirstScanError(q.rows).Some? ==> r == Err(FirstScanError(q.rows).value)
    ensures q.Rows? && AllScanned(q.rows) && (|q.rows| == 0 || q.rows[|q.rows| - 1].row.id == 0) ==> r == Err(NotFound)
    ensures q.Rows? && AllScanned(q.rows) && |q.rows| > 0 && q.rows[|q.rows| - 1].row.id != 0 ==>
      r == Ok(q.rows[|q.rows| - 1].row)
    ensures r.Ok? ==> r.value.id != 0
    ensures r == Lookup(q)
  {
    if q.QueryFailed? {
      return Err(q.error);
    }
    var rows := q.rows;
    var u := ZeroUser;
    var i := 0;
    while i < |rows|
      invariant 0 <= i <= |rows|
      invariant AllScanned(rows[..i])
      invariant u == if i == 0 then ZeroUser else rows[i - 1].row
    {
      match rows[i]
      case ScanFailed(e) =>
        FirstScanErrorIsFirst(rows, i);
        return Err(e);
      case Scanned(row) =>
        u := row;
      assert rows[..i + 1] == rows[..i] + [rows[i]];
      i := i + 1;
    }
    assert rows[..i] == rows;
    if u.id == 0 {
      return Err(NotFound);
    }
    return Ok(u);
  }

  /** `GetUserByEmail`: the rows are those the database returned for the
      email; the fold decides the outcome. */
  method GetUserByEmail(email: string, q: Query<User>) returns (r: Result<User>)
    ensures q.QueryFailed? ==> r == Err(q.error)
    ensures q.Rows? && FirstScanError(q.rows).Some? ==> r == Err(FirstScanError(q.rows).value)
    ensures q.Rows? && AllScanned(q.rows) && (|q.rows| == 0 || q.rows[|q.rows| - 1].row.id == 0) ==> r == Err(NotFound)
    ensures q.Rows? && AllScanned(q.rows) && |q.rows| > 0 && q.rows[|q.rows| - 1].row.id != 0 ==>
      r == Ok(q.rows[|q.rows| - 1].row)
  {
    r := LookupFold(q);
  }

  /** `GetUserByID`: the same fold over the rows returned for the id. */
  method GetUserByID(id: Int64, q: Query<User>) returns (r: Result<User>)
    ensures q.QueryFailed? ==> r == Err(q.error)
    ensures q.Rows? && FirstScanError(q.rows).Some? ==> r == Err(FirstScanError(q.rows).value)
    ensures q.Rows? && AllScanned(q.rows) && (|q.rows| == 0 || q.rows[|q.rows| - 1].row.id == 0) ==> r == Err(NotFound)
    ensures q.Rows? && AllScanned(q.rows) && |q.rows| > 0 && q.rows[|q.rows| - 1].row.id != 0 ==>
      r == Ok(q.rows[|q.rows| - 1].row)
  {
    r := LookupFold(q);
  }

  /** The columns `CreateUser` inserts: the ID and creation time are left to
      the database. */
  datatype UserInsert = UserInsert(firstName: string, lastName: string, email: string, password: string)

  /** `CreateUser`: inserts the user's names, email and password as given,
      assigns nothing back to the user, and returns only the statement's
      error. */
  function CreateUser(u: User, exec: Exec): (r: (UserInsert, Option<string>))
    ensures r.0.firstName == u.firstName && r.0.lastName == u.lastName
    ensures r.0.email == u.email && r.0.password == u.password
    ensures r.1.Some? <==> exec.ExecFailed?
    ensures r.1.Some? ==> r.1.value == exec.error
  {
    (UserInsert(u.firstName, u.lastName, u.email, u.password),
     if exec.ExecFailed? then Some(exec.error) else None)
  }
}
